=== FILE: README.md ===
# ZipAnalyzer in Dafny

A model of the `ZipAnalyzer` class of `zip_analyzer.py`: a tool that finds
ZIP archives on a drive which appear to have been extracted already, so that
they can be deleted. It works in five stages over a SQLite database with three
tables (`files`, `zip_contents`, `potential_matches`):

1. `index_drive` walks a tree and upserts one `files` row per file it can
   stat (`INSERT OR REPLACE`, keyed on the unique `path`).
2. `analyze_zip_files` opens every `files` row whose path is LIKE `'%.zip'`
   and appends one `zip_contents` row per archive entry, stopping at the
   first entry whose row cannot be written (its timestamp does not convert
   or its size is 2^63 or more).
3. `find_potential_extractions` proposes, for every archive with content rows,
   the directories beside it whose name contains the archive's stem. It scores
   each one by the fraction of entry names found under it, and records every
   candidate scoring strictly above 0.7.
4. `get_redundant_zips` joins the match rows with `files` and keeps those at or
   above a threshold (default 0.9), most confident first.
5. `delete_redundant_zips` removes a list of paths and counts the files and
   bytes freed, skipping any path it cannot remove.

Modules, one per concern of the source:

- `Wrappers`: `Option`.
- `Paths`:
  - the SQL `LIKE` matcher, proved equivalent to "ends in `.zip`, ASCII case-insensitively";
  - Python's substring `in`;
  - splitting and joining of paths;
  - `Path.stem`.
- `Scores`: a confidence kept as the exact ratio `matched/total` instead of a float, with the 0.7 recording test and the threshold order.
- `Sequences`: sequences without repeats, and the first `true` of a list of flags.
- `FileSystem`: the tree the analyzer looks at, as a map from path to a file (size, removable or not) or a directory (its listing, readable or not).
- `Store`:
  - the three tables, each a sequence of rows in the order they were inserted (rowid order);
  - SQLite's `INSERT OR REPLACE` rowid assignment;
  - the order in which a `SELECT` without `ORDER BY` returns the archive rows. SQLite promises no order there, so it is an input: a `ScanOrder` ranks the rows, and the rows come out by ascending rank. Every order of the rows is the rank order of some rank, and a rowid scan is one of them (`Store.ArchiveScanByRowId`).
- `Indexer`, `Inspector`, `Matcher`, `Query`, `Deletion`: the five stages.
- `Pipeline`: properties that span stages.

External effects are inputs:

- The directory walk is a sequence of `WalkEntry(dir, name, stat)`. A `None` stat stands for the `PermissionError`/`OSError` the loop catches.
- Opening an archive is a `Reader`, a map from path to `Unreadable` or the entry list. A path absent from the map fails to open. Each entry carries its name, its size (unbounded, as a zip64 `file_size` may be) and its timestamp, or `None` where `datetime(*date_time)` raises. A DOS date can hold a zero day or month, a month above 12, a day past the end of its month, an hour from 24 to 31, a minute from 60 to 63 or a second of 60 or 62, and `datetime` rejects each.
- `os.listdir`, `os.path.isdir`, `os.path.exists`, `os.path.getsize` and `os.remove` read or change a `FileSystem.Tree`.

In two places the model returns what the source only prints:

- `IndexDrive` returns the file count.
- `DeleteRedundantZips` returns the tree left behind and `(deleted, total_bytes)`.

Two failures inside a stage are modelled as the code handles them:

- In `analyze_zip_files` one `try` covers the whole entry loop of an archive. An entry whose row cannot be written ends that archive's loop, and the rows of the entries before it stay (the commit on line 82 follows the `except`). A row cannot be written when its timestamp does not convert, or when its size is 2^63 or more: SQLite's INTEGER is signed 64-bit, so binding it raises `OverflowError`. `Inspector.Writable` states both conditions and `Inspector.EntryRows` keeps that prefix; see "## Findings".
- `_find_matching_directories` does not catch the exception `os.listdir` raises when an archive's parent cannot be listed: it is missing, not a directory, or a directory that may not be read. That exception leaves `find_potential_extractions` mid-loop. `FindPotentialExtractions` ends in `Aborted(db, dir)` with the rows inserted so far, and `dir` is the parent of the first such archive in scan order. `main` and the window's indexing thread run no query after it, so `Pipeline.Survey` gives `None` then.

## Model

| member | source | states |
|---|---|---|
| Sequences.DistinctAppend | zip_analyzer.py:89-102 | two lists without repeats and without a common element concatenate to one without repeats, which is how the per-archive row lists of the matching loop combine |
| Sequences.FirstTrue | zip_analyzer.py:89-95 | the result is the position of the first `true`, or the length when there is none |
| Paths.Like | zip_analyzer.py:68 | a pattern without `%` matches only strings of its own length; `Paths.LikeLiteral` and `Paths.LikeArchivePattern` state what it accepts |
| Paths.LikeLiteral | zip_analyzer.py:68 | a pattern without wildcards matches exactly the strings of its length that agree with it letter by letter up to ASCII case |
| Paths.LikeArchivePattern | zip_analyzer.py:68 | `path LIKE '%.zip'` holds exactly when the path's last four characters are `.zip` up to ASCII case |
| Paths.Contains | zip_analyzer.py:111 | a needle found in a string is no longer than it, and the empty needle is found in every string |
| Paths.ContainsIffOccurs | zip_analyzer.py:111 | `zip_name in entry` holds exactly when the stem occurs at some position of the entry name |
| Paths.LastIndexOf | zip_analyzer.py:90 | the result is the position of the last occurrence of the character, or -1 when it does not occur |
| Paths.Parent | zip_analyzer.py:108 | a path without a separator lives in `.`; otherwise the parent is the part before the last separator |
| Paths.JoinInjective | zip_analyzer.py:110 | joining two different names onto one directory gives two different paths |
| Paths.ParentNameOfJoin | zip_analyzer.py:108-110 | joining a directory and a slash-free name and splitting again gives back the directory and the name |
| Paths.JoinParentName | zip_analyzer.py:108 | a path with a separator is the join of its parent and its final component |
| Paths.Stem | zip_analyzer.py:90 | the stem is a prefix of the name; when it is shorter, the name continues with the last dot, which is neither the first nor the last character; when it is the whole name, no such dot exists |
| Paths.ArchiveStem | zip_analyzer.py:90 | the stem of an archive name is the name without its four-character suffix, or the whole name for a bare `.zip`, and is never empty |
| Paths.ArchiveSuffixDots | zip_analyzer.py:90 | an archive name has its last dot four characters from the end, which is where `Path.stem` cuts |
| Paths.ContainsStemPrefix | zip_analyzer.py:111 | a directory whose name starts with the stem always passes the name test |
| Scores.RecordsMatch | zip_analyzer.py:98 | a score is recorded exactly when it is strictly above seven tenths, which needs at least one matched entry |
| Scores.RecordingThresholdIsExclusive | zip_analyzer.py:98 | a score of exactly 0.7 is not recorded and any score above it is |
| Scores.UnitInterval | zip_analyzer.py:123 | a score lies between 0 and 1 |
| Scores.NotBelowTotal | zip_analyzer.py:133 | any two scores are ordered one way or the other |
| Scores.NotBelowTransitive | zip_analyzer.py:133 | the confidence order is transitive |
| Scores.RecordedMeetsLowerThreshold | zip_analyzer.py:98 | every recorded score meets any reporting threshold of at most 0.7 |
| FileSystem.IsDir | zip_analyzer.py:111 | only a path present in the tree can be a directory |
| FileSystem.Exists | zip_analyzer.py:121 | every directory and every removable file exists; whatever exists has a node in the tree at a prefix of its path |
| FileSystem.ExistsWithSeparator | zip_analyzer.py:120-121 | a name with a trailing separator exists under a candidate exactly when the candidate holds a directory of that name |
| FileSystem.ListDir | zip_analyzer.py:109 | listing succeeds exactly on directories that may be read, and then gives the stored listing, which repeats no name when no listing does |
| FileSystem.Removable | zip_analyzer.py:142-143 | only a present path that is not a directory can be sized and removed |
| FileSystem.Unlink | zip_analyzer.py:143 | removing a file drops exactly that path and leaves every other file and the kind of every other path unchanged |
| FileSystem.UnlinkKeepsOthers | zip_analyzer.py:142-143 | a removed path cannot be removed again; every other path keeps its removability and its size |
| Store.MaxId | zip_analyzer.py:17 | the result bounds every rowid and is attained by one when the table is non-empty |
| Store.NewRowId | zip_analyzer.py:52-56 | a new rowid is larger than every rowid in the table |
| Store.Lookup | zip_analyzer.py:18 | the row found has the path asked for, and none is found only when no row has that path |
| Store.WithoutPath | zip_analyzer.py:52-56 | deleting the conflicting row removes only the rows with that path and keeps the table well formed |
| Store.PrependWellFormed | zip_analyzer.py:16-18 | rows kept in table order stay in ascending rowid order with unique paths |
| Store.RowIdIssued | zip_analyzer.py:17 | the rowid of any row already in the table is below the next rowid to be issued |
| Store.RowIdNamesOneRow | zip_analyzer.py:17 | a rowid names at most one `files` row |
| Store.InsertOrReplace | zip_analyzer.py:52-56 | an upsert keeps rowids ascending and paths unique, and uses up exactly one rowid |
| Store.LookupInsertOrReplace | zip_analyzer.py:52-56 | after an upsert the path maps to a row with the new metadata and a fresh rowid; other paths map to what they did before |
| Store.LookupsAfterInsertOrReplace | zip_analyzer.py:52-56 | the same, for every path at once |
| Store.UpsertKeepsChildrenJoinArchives | zip_analyzer.py:52-56 | an upsert never makes a content or match row join a row whose path does not end in `.zip` |
| Store.SnapshotInsertOrReplace | zip_analyzer.py:52-56 | the table's view of path to metadata after an upsert is the view before, updated at that one path |
| Store.ReplaceRetiresRowId | zip_analyzer.py:52-56 | replacing an existing path gives it a different rowid and leaves no row with the old one, which orphans its child rows |
| Store.LookupUnique | zip_analyzer.py:18 | in a table with unique paths a row is the one found for its own path |
| Store.ArchiveRows | zip_analyzer.py:68 | the rows whose path ends in `.zip`, each once, in table order; the stages read them through `Store.ArchiveScan` |
| Store.ArchiveRowsAreLikeMatches | zip_analyzer.py:68 | a row is selected exactly when its path satisfies the `LIKE '%.zip'` pattern |
| Store.InsertByRank | zip_analyzer.py:68-69 | placing a row by rank adds exactly that row and keeps a ranked list ranked and its rowids distinct |
| Store.SortByRank | zip_analyzer.py:68-69 | the result has the same rows, in ascending rank, with rowids still distinct |
| Store.ArchiveScan | zip_analyzer.py:68-69 | the selected rows are exactly the archive rows, each once, in the order the plan ranks them |
| Store.ArchiveScanByRowId | zip_analyzer.py:68-69 | scanning by rowid gives the archive rows in table order |
| Store.ContentPaths | zip_analyzer.py:91-92 | the names fetched for an archive are exactly the `path_in_zip` values of its content rows; `Store.ContentPathsAreRowNames` gives one name per row, in order |
| Store.RowsFor | zip_analyzer.py:91 | the rows fetched for a rowid are exactly the content rows carrying it |
| Store.RowNames | zip_analyzer.py:92 | one name per row, the `i`-th name being the `i`-th row's `path_in_zip` |
| Store.ContentPathsAreRowNames | zip_analyzer.py:91-92 | the names fetched for an archive are the names of its rows, one per row, in the same order, so there are as many names as rows |
| Store.RowNamesAppend | zip_analyzer.py:92 | the names of two row lists concatenated are the two name lists concatenated |
| Store.RowsForAppend | zip_analyzer.py:75-78 | appending rows appends to each archive's selection separately |
| Store.ContentPathsAppend | zip_analyzer.py:91-92 | appending rows appends to each archive's entry-name list separately |
| Store.AppendMatchesWellFormed | zip_analyzer.py:99-102 | appending match rows that name issued rowids keeps the database well formed |
| Store.AppendMatchesKeepsChildrenJoinArchives | zip_analyzer.py:99-102 | appending match rows that each name an archive row keeps every content and match row joining only archive rows |
| Store.FreshIdHasNoContent | zip_analyzer.py:30 | no content row refers to a rowid not yet issued |
| Indexer.IndexDrive | zip_analyzer.py:43-64 | indexing changes only `files`, and the count never exceeds the number of walk entries |
| Indexer.IndexStep | zip_analyzer.py:49-62 | a failed stat changes nothing; a successful one counts once, makes its path name a row with a fresh rowid and the stat-ed name, size and time, and leaves every other path as it was |
| Indexer.IndexDriveAppend | zip_analyzer.py:47-62 | one more walk entry is one more loop iteration on top of the earlier ones |
| Indexer.LastSuccess | zip_analyzer.py:52-56 | the latest successful walk entry for a path, or none when no entry for it was stat-ed |
| Indexer.IndexCountsSuccesses | zip_analyzer.py:57 | the count equals the number of entries whose stat succeeded |
| Indexer.IndexIssuesOneRowIdPerSuccess | zip_analyzer.py:52-57 | each counted file uses exactly one fresh rowid |
| Indexer.IndexPreservesWellFormed | zip_analyzer.py:16-22 | indexing keeps rowids ascending, paths unique and child references to issued rowids |
| Indexer.IndexKeepsChildrenJoinArchives | zip_analyzer.py:47-62 | indexing never makes a content or match row join a row whose path does not end in `.zip`, even over rows of earlier runs |
| Indexer.IndexSkipsFailures | zip_analyzer.py:61-62 | a failed stat has no effect: indexing the walk equals indexing its successful entries alone |
| Indexer.LatestMetaStep | zip_analyzer.py:47-56 | a later successful entry for a path overrides what earlier entries said about it |
| Indexer.IndexSnapshot | zip_analyzer.py:47-62 | afterwards each stat-ed path holds the metadata of its latest successful entry and every other path keeps its row |
| Indexer.IndexIdempotent | zip_analyzer.py:43-64 | indexing an unchanged tree again records the same metadata for every path |
| Indexer.IndexedPathsGetFreshRowIds | zip_analyzer.py:52-56 | every stat-ed path ends up with a rowid issued during this pass |
| Indexer.IndexedPathsHaveNoContent | zip_analyzer.py:52-56 | right after indexing, a stat-ed path has no content rows under its current rowid |
| Inspector.WritablePrefix | zip_analyzer.py:73-79 | the loop gets through exactly the entries before the first whose row cannot be written: its timestamp does not convert or its size does not fit a signed 64-bit INTEGER |
| Inspector.EntryRows | zip_analyzer.py:72-81 | an archive that fails to open gives no rows; one that opens gives, for each entry before the first whose row cannot be written, the row with the archive's rowid and that entry's name, size and time, in central-directory order |
| Inspector.EntryNames | zip_analyzer.py:74-78 | the names of those rows, one per recorded entry, in order |
| Inspector.EntryRowsComplete | zip_analyzer.py:72-81 | an opened archive is recorded in full exactly when every entry's row can be written, and its rows carry exactly its entry names |
| Inspector.AtomicEntryRows | zip_analyzer.py:72-82 | an archive gets a row for every entry or none at all, and it equals the rows the code writes whenever every entry's row can be written |
| Inspector.NewContent | zip_analyzer.py:71-79 | every appended row belongs to one of the archives processed |
| Inspector.AnalyzeZipFiles | zip_analyzer.py:66-83 | analysis only appends content rows, each belonging to an archive row, and keeps the database well formed, in any scan order |
| Inspector.NewContentForMember | zip_analyzer.py:71-79 | an archive's new rows are exactly its own loop's rows in order, and other archives do not interfere |
| Inspector.NewContentForAbsent | zip_analyzer.py:71-79 | a rowid that is not an archive's gets no new rows |
| Inspector.AnalyzePerFile | zip_analyzer.py:71-81 | after analysis each file's content rows are its earlier rows followed by exactly the rows its archive's loop writes; unreadable archives and non-archives gain none; in any scan order |
| Inspector.AnalyzedNames | zip_analyzer.py:71-81 | the names the matching stage reads for a file after analysis are its earlier names followed by its archive's recorded entry names |
| Inspector.AnalyzeKeepsChildrenJoinArchives | zip_analyzer.py:71-79 | analysis never makes a content row join a row whose path does not end in `.zip` |
| Matcher.Candidates | zip_analyzer.py:109-113 | a candidate is exactly the join of the parent and a listed entry that is a directory and contains the stem; a listing without repeats gives candidates without repeats |
| Matcher.CandidatesInListingOrder | zip_analyzer.py:109-112 | candidates come in listing order: one more entry adds at most that entry at the end |
| Matcher.FindMatchingDirectories | zip_analyzer.py:105-113 | fails exactly when the parent cannot be listed; otherwise returns exactly the parent's subdirectories whose name contains the stem, each once when listings repeat no name |
| Matcher.MatchedCount | zip_analyzer.py:117-122 | the number of matched entries never exceeds the number of entries |
| Matcher.ExtractionConfidence | zip_analyzer.py:115-124 | the score is a valid ratio over all entries; with no entries it is 0 and not recorded |
| Matcher.CalculateExtractionConfidence | zip_analyzer.py:115-124 | the loop computes the reference score, counting the entries present under the candidate |
| Matcher.MatchedCountExtremes | zip_analyzer.py:119-122 | the count is full exactly when every entry exists under the candidate, and zero exactly when none does |
| Matcher.FullConfidenceIffAllPresent | zip_analyzer.py:115-124 | a non-empty archive scores 1 exactly when all its entries exist under the candidate, and 0 exactly when none does |
| Matcher.ScoreCandidates | zip_analyzer.py:96-102 | every candidate scoring above 0.7 is recorded with its score, and nothing else is; distinct candidates give distinct rows |
| Matcher.FirstBlocked | zip_analyzer.py:89-95 | the position of the first archive that has content rows and an unlistable parent, or the length when there is none |
| Matcher.FirstBlockedStep | zip_analyzer.py:89-95 | the first blocking position of a list is 0 when its head blocks and one past the tail's otherwise |
| Matcher.ArchiveStep | zip_analyzer.py:91-102 | one archive's iteration raises exactly when it has content rows and its parent cannot be listed; otherwise it writes exactly the rows recorded for it, each once |
| Matcher.ExtractionPass | zip_analyzer.py:89-102 | every row belongs to an archive with content and a proposed directory scoring above 0.7; the pass fails exactly when such an archive's parent cannot be listed; a complete pass records every qualifying pair |
| Matcher.PassFailedDirStep | zip_analyzer.py:89-95 | the pass fails at the head's parent when the head blocks, and where the rest fails otherwise |
| Matcher.PassFailsAtStopDir | zip_analyzer.py:89-95 | the pass fails at the parent of the first archive with content rows and an unlistable parent, read off the archives alone, and nowhere when there is none |
| Matcher.StopDirAtFirstBlocked | zip_analyzer.py:89-95 | that directory is the parent of the archive at the position `FirstBlocked` gives |
| Matcher.PassStopsAtFirstBlocked | zip_analyzer.py:89-95 | the pass fails at the parent of the first blocking archive, and completes when none blocks |
| Matcher.RecordedBeforeShift | zip_analyzer.py:89 | a row recorded for one of the first `n` archives is recorded for the head or for one of the first `n - 1` of the rest |
| Matcher.PassRowsExactly | zip_analyzer.py:89-102 | the rows of a pass are exactly the rows recorded for the archives before the first blocking one |
| Matcher.PassRowsDistinct | zip_analyzer.py:89-102 | with distinct rowids and listings without repeats, no (archive, directory) row is written twice |
| Matcher.PassRowsBelongToArchives | zip_analyzer.py:87-102 | every row the pass writes belongs to a `files` row whose path ends in `.zip`, meets the recording conditions and names an issued rowid |
| Matcher.AppendedRowsBelong | zip_analyzer.py:99-103 | each row appended to `potential_matches` belongs to an archive row it is recorded for, and the database stays well formed |
| Matcher.PassCompletesIff | zip_analyzer.py:89-95 | the pass completes exactly when every archive row with content rows has a listable parent |
| Matcher.FindPotentialExtractions | zip_analyzer.py:85-103 | the stage only appends match rows, each for a recorded archive and candidate pair; it completes exactly when every archive with content rows has a listable parent; it keeps the database well formed |
| Matcher.AbortedAtFirstBlocked | zip_analyzer.py:89-109 | a stage cut short names the parent of the first archive in scan order that has content rows and an unlistable parent |
| Matcher.CompletedRecordsEveryPair | zip_analyzer.py:93-102 | a complete stage has a row for every archive and proposed directory scoring above 0.7 |
| Matcher.StageRowsExactly | zip_analyzer.py:89-102 | the appended rows are exactly the rows recorded for the archives scanned before the first blocking one |
| Matcher.StageRowsDistinct | zip_analyzer.py:89-102 | within one run each (archive, directory) pair is written at most once |
| Query.JoinFiles | zip_analyzer.py:131 | a match row joins exactly the `files` rows carrying its rowid, so an orphaned match gives none |
| Query.Qualifying | zip_analyzer.py:128-132 | the filtered join holds exactly the joined rows whose confidence meets the threshold |
| Query.Insert | zip_analyzer.py:133 | inserting into a descending list keeps it descending and adds exactly the one row |
| Query.SortByConfidence | zip_analyzer.py:133 | the result is a descending permutation of its input |
| Query.GetRedundantZips | zip_analyzer.py:126-135 | every row returned meets the threshold; rows come most confident first; they are exactly the qualifying joined rows, with multiplicity |
| Query.GetRedundantZipsDefault | zip_analyzer.py:126-135 | without an argument a row is returned exactly when a match row at or above 0.9 joins a `files` row with that path, as often as such joins occur, most confident first |
| Query.RedundantMembership | zip_analyzer.py:128-134 | a row is returned exactly when some match row at or above the threshold joins a `files` row with that path |
| Query.DescendingPairwise | zip_analyzer.py:133 | in the returned order any earlier row is at least as confident as any later one |
| Query.FirstIsMostConfident | zip_analyzer.py:133-135 | the first row returned is at least as confident as every qualifying row |
| Deletion.DeleteRedundantZips | zip_analyzer.py:137-149 | the deleted count never exceeds the number of requested paths, and removal only shrinks the tree |
| Deletion.DeleteNothing | zip_analyzer.py:138-139 | an empty request removes nothing and reports zero files and zero bytes |
| Deletion.RemoveAll | zip_analyzer.py:140-148 | drops every occurrence of one path and keeps the others |
| Deletion.Dedup | zip_analyzer.py:140-148 | keeps the same set of paths |
| Deletion.DedupDistinct | zip_analyzer.py:140-148 | keeps each path once |
| Deletion.RemovedSet | zip_analyzer.py:140-145 | the removed paths are exactly the requested paths that were removable |
| Deletion.RemovableIn | zip_analyzer.py:141-143 | keeps exactly the requested paths that can be removed |
| Deletion.RemovableAfterUnlink | zip_analyzer.py:142-143 | once a path is removed, the removable requests are the earlier ones without it |
| Deletion.SizeSumAfterUnlink | zip_analyzer.py:142 | removing one file leaves the sizes of all other paths unchanged |
| Deletion.DeleteMatchesReference | zip_analyzer.py:137-149 | the batch removes exactly the distinct requested paths that were removable files; `deleted` counts them, `total_bytes` adds their original sizes, and the tree loses exactly them |
| Deletion.DistinctCardinality | zip_analyzer.py:144 | a list without repeats has as many entries as its set |
| Deletion.DeletedCountsDistinctPaths | zip_analyzer.py:144 | `deleted` is the number of distinct removable paths requested, so a path listed twice counts once |
| Deletion.TwoArchivesAndAMissingPath | zip_analyzer.py:140-148 | two removable archives with a missing path between them: both are deleted, their sizes are added, and the missing path is only skipped |
| Pipeline.Survey | zip_analyzer.py:151-157 | starting from the stored database, the survey gives nothing exactly when some archive with content rows has an unlistable parent; otherwise it reports exactly the joined match rows at or above 0.9, each as often as it joins (what `len(redundant_zips)` counts), most confident first |
| Pipeline.ReportsOnlyArchives | zip_analyzer.py:126-135 | when every child row joins only archive rows, every reported path ends in `.zip` |
| Pipeline.MatchesJoinOnlyArchives | zip_analyzer.py:85-103 | the matching stage keeps every content and match row joining only rows whose path ends in `.zip` |
| Pipeline.SurveyReportsOnlyArchives | zip_analyzer.py:151-164 | from any well-formed database whose child rows join only archive rows, every path offered for deletion ends in `.zip` |
| Pipeline.EmptyArchiveNeverMatched | zip_analyzer.py:91-94 | an archive whose loop records no entry and which had no earlier content never gets a match row |
| Pipeline.RowsIffPaths | zip_analyzer.py:91-93 | an archive has content rows exactly when it has entry names to score |
| Pipeline.PartialArchiveNames | zip_analyzer.py:73-81 | the loop records `a.txt` and stops at `b.txt`, whose date does not convert |
| Pipeline.PartialArchiveKeepsPrefix | zip_analyzer.py:72-82 | after analysis the archive's only name is `a.txt` |
| Pipeline.OversizeEntryKeepsPrefix | zip_analyzer.py:73-79 | the loop records `a.txt` and stops at an entry of size 2^63, which a SQLite INTEGER cannot hold |
| Pipeline.HalfExtractedScoresFull | zip_analyzer.py:115-124 | the directory `d/x` scores 1 for the names `[a.txt]` and has no `b.txt` |
| Pipeline.PartialArchiveScoresFull | zip_analyzer.py:72-82 | the half-extracted directory scores 1 for the half-recorded archive |
| Pipeline.AtomicFullScoreMeansAllExtracted | zip_analyzer.py:72-82 | with the per-archive step made all-or-none, a full score means every entry of the archive exists under the directory |

## Findings

| source | as written | input that shows it | evidently intended | confidence | as-written member | corrected member |
|---|---|---|---|---|---|---|
| zip_analyzer.py:72-82 | One `try` covers the whole entry loop, and the commit on line 82 follows the `except`. An entry whose `datetime(*date_time)` raises, or whose size of 2^63 or more makes the `INSERT` raise `OverflowError`, therefore leaves the rows of the entries before it. The archive is then scored on a prefix of its entries. | An archive holding `a.txt`, then `b.txt` with month 0, beside a directory `d/x` holding only `a.txt`: after analysis `d/x` scores 1 for the archive, which meets every reporting threshold, although `b.txt` was never extracted. | An archive that cannot be read in full is skipped like one that fails to open, so a full score means every entry was found. | not executed; high that the prefix is kept, medium that it was unintended | Inspector.EntryRows, Pipeline.PartialArchiveScoresFull | Inspector.AtomicEntryRows, Pipeline.AtomicFullScoreMeansAllExtracted |

The stages use `Inspector.EntryRows`, the behaviour as written, so that every other contract describes what the code does. `Inspector.AtomicEntryRows` agrees with it on every archive whose rows can all be written.

## Left out

- The PyQt front end in `zip_manager_gui.py` (widgets, signal wiring), `main`'s prompts and confirmation, and every `print`. These are user interface. `Pipeline.Survey` composes the stages in the order both `main` and the window's indexing thread use, without the prompts.
- SQLite mechanics:
  - connections and `CREATE TABLE`;
  - commits, including the every-1000-rows commit in `index_drive`;
  - transactions.

  The tables are values. The rows `Aborted` carries are in the connection but not committed, and what a later commit or a closed connection does with them is not modelled.
- Ordering:
  - The order in which `os.walk` visits a tree is an input, as are symbolic links and permissions.
  - The order of tied confidences under `ORDER BY` is left open by SQLite. `SortByConfidence` fixes one order and the contracts speak only of descending order and permutation.
- Matcher.FindPotentialExtractions: only the uncaught `os.listdir` failure ends the stage early. The `INSERT` on lines 99-102 binds `dir_path`, built from a name `os.listdir` returned; a name holding undecodable bytes arrives with surrogate escapes, and sqlite3 raises an uncaught `UnicodeEncodeError` that ends the stage just as an unlistable parent does. A Dafny `char` cannot hold a lone surrogate, so that failure is not modelled and the stage here never aborts for it.
- Store.ContentPaths: returns an archive's names in rowid order. SQLite promises no order for this `SELECT` either; the only reader, the confidence count, does not depend on the order.
- Indexer.IndexDrive: only the `PermissionError`/`OSError` the loop catches is modelled. Two other failures inside the `try` (lines 50-56) are not caught and would end `index_drive` and the program: `datetime.fromtimestamp` raising `ValueError` or `OverflowError` on an out-of-range `st_mtime`, and `UnicodeEncodeError` when a file name holds surrogate escapes that the database cannot store. A walk here never raises. The model also returns the count the source only prints.
- Zip parsing. The entries and whether each timestamp converts are inputs; the timestamp value itself is opaque.
- Floating point:
  - The confidence is the exact ratio. The float test `m / t > 0.7` agrees with `10*m > 7*t` only while the float rounding of the quotient does not cross 0.7, which holds for any archive of fewer than about 10^15 entries.
  - A stored confidence is a Python float; the model stores the exact ratio and compares ratios by cross-multiplication.
  - `total_bytes/1024/1024` formatting is display only.
- Paths:
  - `os.path.join` with an absolute second argument or a trailing separator, `Path` normalisation of `.` and duplicate separators, and Windows drive letters or backslashes. Paths are plain `/`-joined strings.
  - `Paths.Parent` of a top-level path `/x` is the empty string rather than `/`, so that the join of parent and name gives the path back.
- `LIKE` escapes and non-ASCII case folding. The source uses a fixed pattern without `ESCAPE`, and SQLite folds only ASCII letters.
- Deletion.DeleteRedundantZips: returns `None` in the source. The model returns the counts the source prints, together with the resulting tree.
- Re-analysis: running `analyze_zip_files` twice appends every archive's entries a second time, as the source does. The model represents this as the append it is, with no deduplication.

=== FILE: deletion.dfy ===
/** `ZipAnalyzer.delete_redundant_zips`: a fold over the caller's path list.
    For each path the size is read and the file removed; if either step
    raises, the path is skipped and the batch goes on. The summary the
    source prints (`deleted`, `total_bytes`) is returned. */
module Deletion {
  import opened FileSystem
  import opened Sequences

  datatype Summary = Summary(deleted: nat, totalBytes: nat)

  /** The size `os.path.getsize` would read before removal (0 where it is
      of no use because the removal fails anyway). */
  function SizeOf(fs: Tree, path: string): nat
  {
    if path in fs && fs[path].File? then fs[path].size else 0
  }

  /** The deletion loop, with the tree it leaves behind. */
  function DeleteRedundantZips(fs: Tree, paths: seq<string>): (r: (Tree, Summary))
    ensures r.1.deleted <= |paths|
    ensures r.0.Keys <= fs.Keys
    decreases |paths|
  {
    if |paths| == 0 then (fs, Summary(0, 0))
    else
      var p := paths[0];
      if Removable(fs, p) then
        var rest := DeleteRedundantZips(Unlink(fs, p), paths[1..]);
        (rest.0, Summary(rest.1.deleted + 1, rest.1.totalBytes + fs[p].size))
      else
        DeleteRedundantZips(fs, paths[1..])
  }

  /** An empty request touches nothing and reports zero files, zero bytes. */
  lemma DeleteNothing(fs: Tree)
    ensures DeleteRedundantZips(fs, []) == (fs, Summary(0, 0))
  {
  }

  /** `xs` with every occurrence of `x` dropped. */
  function RemoveAll(xs: seq<string>, x: string): (r: seq<string>)
    ensures |r| <= |xs|
    ensures forall y :: y in r <==> y in xs && y != x
  {
    if |xs| == 0 then []
    else (if xs[0] == x then [] else [xs[0]]) + RemoveAll(xs[1..], x)
  }

  /** First occurrences only, order kept. */
  function Dedup(xs: seq<string>): (r: seq<string>)
    ensures forall y :: y in r <==> y in xs
    decreases |xs|
  {
    if |xs| == 0 then []
    else [xs[0]] + Dedup(RemoveAll(xs[1..], xs[0]))
  }

  lemma {:induction false} DedupDistinct(xs: seq<string>)
    ensures Distinct(Dedup(xs))
    decreases |xs|
  {
    if |xs| > 0 {
      var rest := Dedup(RemoveAll(xs[1..], xs[0]));
      DedupDistinct(RemoveAll(xs[1..], xs[0]));
      assert xs[0] !in rest;
      assert Dedup(xs) == [xs[0]] + rest;
    }
  }

  /** The paths that are removable files in `fs`, in request order. */
  function RemovableIn(fs: Tree, paths: seq<string>): (r: seq<string>)
    ensures forall y :: y in r <==> y in paths && Removable(fs, y)
  {
    if |paths| == 0 then []
    else (if Removable(fs, paths[0]) then [paths[0]] else []) + RemovableIn(fs, paths[1..])
  }

  /** The files the batch removes, described without replaying it: every
      distinct requested path that was a removable file beforehand. */
  function Removed(fs: Tree, paths: seq<string>): seq<string>
  {
    Dedup(RemovableIn(fs, paths))
  }

  function SizeSum(fs: Tree, paths: seq<string>): nat
  {
    if |paths| == 0 then 0 else SizeOf(fs, paths[0]) + SizeSum(fs, paths[1..])
  }

  /** After `p` is removed, the removable requests are the earlier ones minus `p`. */
  lemma {:induction false} RemovableAfterUnlink(fs: Tree, p: string, paths: seq<string>)
    ensures RemovableIn(Unlink(fs, p), paths) == RemoveAll(RemovableIn(fs, paths), p)
    decreases |paths|
  {
    if |paths| > 0 {
      UnlinkKeepsOthers(fs, p, paths[0]);
      RemovableAfterUnlink(fs, p, paths[1..]);
      var tail := RemovableIn(fs, paths[1..]);
      if Removable(fs, paths[0]) {
        var all := [paths[0]] + tail;
        assert RemovableIn(fs, paths) == all;
        assert all[0] == paths[0] && all[1..] == tail;
      } else {
        assert RemovableIn(fs, paths) == tail;
      }
    }
  }

  /** Removing `p` leaves the sizes of all other paths as they were. */
  lemma {:induction false} SizeSumAfterUnlink(fs: Tree, p: string, paths: seq<string>)
    requires p !in paths
    ensures SizeSum(Unlink(fs, p), paths) == SizeSum(fs, paths)
    decreases |paths|
  {
    if |paths| > 0 {
      assert paths[0] != p;
      SizeSumAfterUnlink(fs, p, paths[1..]);
    }
  }

  /** The batch deletes exactly the distinct requested paths that were
      removable files: `deleted` counts them, `total_bytes` adds their sizes
      from before the batch, and the tree loses exactly them. A path asked
      for twice is removed once; the second attempt fails and is skipped. */
  lemma {:induction false} DeleteMatchesReference(fs: Tree, paths: seq<string>)
    ensures var (after, summary) := DeleteRedundantZips(fs, paths);
      && summary.deleted == |Removed(fs, paths)|
      && summary.totalBytes == SizeSum(fs, Removed(fs, paths))
      && after.Keys == fs.Keys - (set q | q in Removed(fs, paths))
    decreases |paths|
  {
    if |paths| > 0 {
      var p := paths[0];
      if Removable(fs, p) {
        var fs' := Unlink(fs, p);
        DeleteMatchesReference(fs', paths[1..]);
        RemovableAfterUnlink(fs, p, paths[1..]);
        var later := RemovableIn(fs, paths[1..]);
        assert RemovableIn(fs, paths) == [p] + later;
        assert Removed(fs, paths) == [p] + Dedup(RemoveAll(later, p));
        assert Removed(fs', paths[1..]) == Dedup(RemoveAll(later, p));
        SizeSumAfterUnlink(fs, p, Removed(fs', paths[1..]));
        assert ([p] + Dedup(RemoveAll(later, p)))[1..] == Dedup(RemoveAll(later, p));
      } else {
        DeleteMatchesReference(fs, paths[1..]);
        assert RemovableIn(fs, paths) == RemovableIn(fs, paths[1..]);
      }
    }
  }

  /** A sequence without repetitions has as many elements as its set. */
  lemma {:induction false} DistinctCardinality(xs: seq<string>)
    requires Distinct(xs)
    ensures |set x | x in xs| == |xs|
    decreases |xs|
  {
    if |xs| > 0 {
      var tail := xs[1..];
      DistinctTail(xs);
      DistinctCardinality(tail);
      var all, rest := set x | x in xs, set x | x in tail;
      assert xs[0] !in rest;
      assert forall x :: x in xs <==> x == xs[0] || x in tail;
      assert all == rest + {xs[0]};
    }
  }

  /** The paths the batch removes, as a set. */
  lemma RemovedSet(fs: Tree, paths: seq<string>)
    ensures (set q | q in Removed(fs, paths)) == (set q | q in paths && Removable(fs, q))
  {
  }

  /** The deleted count is the number of distinct requested paths that were
      removable files, so it never exceeds the number of distinct paths. */
  lemma DeletedCountsDistinctPaths(fs: Tree, paths: seq<string>)
    ensures DeleteRedundantZips(fs, paths).1.deleted == |set q | q in paths && Removable(fs, q)|
    ensures DeleteRedundantZips(fs, paths).1.deleted <= |set q | q in paths|
  {
    var removed := Removed(fs, paths);
    DeleteMatchesReference(fs, paths);
    assert DeleteRedundantZips(fs, paths).1.deleted == |removed|;
    DedupDistinct(RemovableIn(fs, paths));
    DistinctCardinality(removed);
    RemovedSet(fs, paths);
    SubsetCardinality(set q | q in paths && Removable(fs, q), set q | q in paths);
  }

  lemma SubsetCardinality<T>(a: set<T>, b: set<T>)
    requires a <= b
    ensures |a| <= |b|
  {
    assert b == a + (b - a);
  }

  /** Two removable archives with a missing path between them: both are
      deleted, their sizes are added, and the missing one only fails. */
  lemma TwoArchivesAndAMissingPath(fs: Tree, a: string, missing: string, b: string)
    requires Removable(fs, a) && Removable(fs, b) && a != b
    requires missing !in fs
    ensures DeleteRedundantZips(fs, [a, missing, b]).1 == Summary(2, fs[a].size + fs[b].size)
  {
    var fs1 := Unlink(fs, a);
    UnlinkKeepsOthers(fs, a, b);
    assert [a, missing, b][1..] == [missing, b];
    assert [missing, b][1..] == [b];
    var fs2 := Unlink(fs1, b);
    assert DeleteRedundantZips(fs1, [b]) == (fs2, Summary(1, fs1[b].size));
  }
}

=== FILE: filesystem.dfy ===
/** The abstract filesystem the analyzer queries after indexing: a map from
    path to node. A directory lists its entry names in the order
    `os.listdir` returns them and may refuse to be listed; a file knows its
    size and whether the operating system refuses to remove it. */
module FileSystem {
  import opened Paths
  import opened Wrappers
  import opened Sequences

  datatype Node = File(size: nat, locked: bool) | Dir(entries: seq<string>, readable: bool)

  type Tree = map<string, Node>

  /** `os.path.isdir(path)`: true for a directory whether or not it can be
      listed, false for a file and for a missing path. */
  predicate IsDir(fs: Tree, path: string)
    ensures IsDir(fs, path) ==> path in fs
  {
    path in fs && fs[path].Dir?
  }

  /** `os.listdir(path)` succeeds: a directory the process may read. */
  predicate Listable(fs: Tree, path: string)
  {
    IsDir(fs, path) && fs[path].readable
  }

  /** `os.listdir` never repeats a name, so no listing of the tree does. */
  predicate ListingsDistinct(fs: Tree)
  {
    forall p :: p in fs && fs[p].Dir? ==> Distinct(fs[p].entries)
  }

  predicate NoTrailingSeparator(path: string)
  {
    |path| == 0 || path[|path| - 1] != Separator
  }

  /** `os.path.isdir` of a path that may carry trailing separators. */
  predicate IsDirPath(fs: Tree, path: string)
    ensures IsDirPath(fs, path) ==> exists q :: IsDir(fs, q) && StartsWith(path, q)
    decreases |path|
  {
    if |path| > 0 && path[|path| - 1] == Separator then
      var shorter := path[..|path| - 1];
      assert forall q :: StartsWith(shorter, q) ==> StartsWith(path, q) by {
        forall q | StartsWith(shorter, q)
          ensures StartsWith(path, q)
        {
          assert path[..|q|] == shorter[..|q|];
        }
      }
      IsDirPath(fs, shorter)
    else
      assert StartsWith(path, path);
      IsDir(fs, path)
  }

  /** `os.path.exists(path)`: the path names a node; a path ending in a
      separator exists only when it names a directory (archive directory
      entries such as "docs/" are written that way). */
  predicate Exists(fs: Tree, path: string)
    ensures NoTrailingSeparator(path) && (IsDir(fs, path) || Removable(fs, path)) ==> Exists(fs, path)
    ensures Exists(fs, path) ==> exists q :: q in fs && StartsWith(path, q)
  {
    if |path| > 0 && path[|path| - 1] == Separator then IsDirPath(fs, path[..|path| - 1])
    else path in fs
  }

  /** An entry name with a trailing separator (how an archive stores a
      directory) exists under a candidate exactly when the candidate holds a
      directory of that name; a file of that name does not count. */
  lemma ExistsWithSeparator(fs: Tree, path: string)
    requires NoTrailingSeparator(path)
    ensures Exists(fs, path + [Separator]) <==> IsDir(fs, path)
  {
    assert (path + [Separator])[..|path|] == path;
  }

  /** `os.listdir(path)`: the entry names, or `None` where Python raises
      (a missing path, a file, or a directory that may not be read). */
  function ListDir(fs: Tree, path: string): (r: Option<seq<string>>)
    ensures r.Some? <==> Listable(fs, path)
    ensures r.Some? ==> r.value == fs[path].entries
    ensures ListingsDistinct(fs) && r.Some? ==> Distinct(r.value)
  {
    if Listable(fs, path) then Some(fs[path].entries) else None
  }

  /** The `os.path.getsize` + `os.remove` pair succeeds: a file the
      operating system lets go. */
  predicate Removable(fs: Tree, path: string)
    ensures Removable(fs, path) ==> path in fs && !IsDir(fs, path)
  {
    path in fs && fs[path].File? && !fs[path].locked
  }

  /** Every occurrence of `name` dropped from a listing. */
  function WithoutName(names: seq<string>, name: string): (r: seq<string>)
    ensures forall n :: n in r <==> n in names && n != name
  {
    if |names| == 0 then []
    else (if names[0] == name then [] else [names[0]]) + WithoutName(names[1..], name)
  }

  /** The tree after `os.remove(path)`: the node is gone and so is its name
      from its parent's listing; every other node keeps its kind and every
      other file is untouched. */
  function Unlink(fs: Tree, path: string): (r: Tree)
    ensures r.Keys == fs.Keys - {path}
    ensures forall q :: q in r ==> r[q].File? == fs[q].File?
    ensures forall q :: q in r && fs[q].File? ==> r[q] == fs[q]
  {
    var rest := fs - {path};
    var parent := Parent(path);
    if IsDir(rest, parent) then rest[parent := rest[parent].(entries := WithoutName(rest[parent].entries, Name(path)))]
    else rest
  }

  /** Removing one path leaves the removability and size of every other path
      as it was, and the removed path is no longer removable. */
  lemma UnlinkKeepsOthers(fs: Tree, path: string, q: string)
    ensures !Removable(Unlink(fs, path), path)
    ensures q != path ==> (Removable(Unlink(fs, path), q) <==> Removable(fs, q))
    ensures q != path && Removable(fs, q) ==> Unlink(fs, path)[q].size == fs[q].size
  {
  }
}

=== FILE: indexer.dfy ===
/** `ZipAnalyzer.index_drive`: every file name the directory walk yields is
    stat-ed and upserted into `files`; an entry whose stat fails is skipped
    and the walk goes on. The walk itself (the order `os.walk` visits the
    tree in) is an input: one `WalkEntry` per file name, in visiting order. */
module Indexer {
  import opened Wrappers
  import opened Paths
  import opened Store

  /** What `os.stat` reports: `st_size` and `st_mtime` (kept opaque). */
  datatype Stat = Stat(size: nat, mtime: int)

  /** A file `name` found in directory `dir`, with the outcome of stat-ing
      it; `None` stands for the `PermissionError`/`OSError` the loop catches. */
  datatype WalkEntry = WalkEntry(dir: string, name: string, stat: Option<Stat>)

  function EntryPath(e: WalkEntry): string
  {
    Join(e.dir, e.name)
  }

  predicate Succeeds(e: WalkEntry)
  {
    e.stat.Some?
  }

  function EntryMeta(e: WalkEntry): Meta
    requires Succeeds(e)
  {
    Meta(e.name, e.stat.value.size, e.stat.value.mtime)
  }

  /** The indexing loop: the walk's entries in order, each successful one
      upserted, together with the count of successful entries. */
  function IndexDrive(db: Db, walk: seq<WalkEntry>): (r: (Db, nat))
    ensures r.0.contents == db.contents && r.0.matches == db.matches
    ensures r.1 <= |walk|
    decreases |walk|
  {
    if |walk| == 0 then (db, 0)
    else IndexStep(IndexDrive(db, walk[..|walk| - 1]), walk[|walk| - 1])
  }

  /** One iteration of the loop: upsert and count a successful entry, skip a
      failed one. */
  function IndexStep(prior: (Db, nat), e: WalkEntry): (r: (Db, nat))
    ensures r.0.contents == prior.0.contents && r.0.matches == prior.0.matches
    ensures !Succeeds(e) ==> r == prior
    ensures Succeeds(e) ==> r.1 == prior.1 + 1
    ensures Succeeds(e) ==>
      Lookup(r.0.files, EntryPath(e)) ==
      Some(FileRow(NewRowId(prior.0.files), EntryPath(e), e.name, e.stat.value.size, e.stat.value.mtime))
    ensures forall q :: q != EntryPath(e) ==> Lookup(r.0.files, q) == Lookup(prior.0.files, q)
  {
    if !Succeeds(e) then prior
    else
      LookupsAfterInsertOrReplace(prior.0.files, EntryPath(e), EntryMeta(e));
      (prior.0.(files := InsertOrReplace(prior.0.files, EntryPath(e), EntryMeta(e))), prior.1 + 1)
  }

  /** Indexing a walk extended by one entry is one more step. */
  lemma IndexDriveAppend(db: Db, walk: seq<WalkEntry>, e: WalkEntry)
    ensures IndexDrive(db, walk + [e]) == IndexStep(IndexDrive(db, walk), e)
  {
    assert (walk + [e])[..|walk|] == walk;
  }

  /** The entries whose stat succeeded, in walk order. */
  function Successes(walk: seq<WalkEntry>): (r: seq<WalkEntry>)
  {
    if |walk| == 0 then []
    else
      var last := walk[|walk| - 1];
      Successes(walk[..|walk| - 1]) + (if Succeeds(last) then [last] else [])
  }

  /** Position of the last successful entry for `path`, if any. */
  function LastSuccess(walk: seq<WalkEntry>, path: string): (r: Option<nat>)
    ensures r.Some? ==> r.value < |walk| && Succeeds(walk[r.value]) && EntryPath(walk[r.value]) == path
    ensures r.Some? ==> forall j :: r.value < j < |walk| ==> !(Succeeds(walk[j]) && EntryPath(walk[j]) == path)
    ensures r.None? ==> forall j :: 0 <= j < |walk| ==> !(Succeeds(walk[j]) && EntryPath(walk[j]) == path)
  {
    if |walk| == 0 then None
    else if Succeeds(walk[|walk| - 1]) && EntryPath(walk[|walk| - 1]) == path then Some(|walk| - 1)
    else LastSuccess(walk[..|walk| - 1], path)
  }

  /** The paths some successful entry names. */
  function SuccessPaths(walk: seq<WalkEntry>): set<string>
  {
    set e | e in walk && Succeeds(e) :: EntryPath(e)
  }

  /** What the walk says about each path it stat-ed: the latest successful
      entry wins. */
  function LatestMeta(walk: seq<WalkEntry>): map<string, Meta>
  {
    map p | p in SuccessPaths(walk) :: EntryMeta(walk[LastSuccess(walk, p).value])
  }

  lemma SuccessPathsHaveLast(walk: seq<WalkEntry>, p: string)
    ensures p in SuccessPaths(walk) <==> LastSuccess(walk, p).Some?
  {
    if p in SuccessPaths(walk) {
      var e :| e in walk && Succeeds(e) && EntryPath(e) == p;
      var j :| 0 <= j < |walk| && walk[j] == e;
    }
  }

  /** The counter grows exactly once per entry whose stat succeeded. */
  lemma {:induction false} IndexCountsSuccesses(db: Db, walk: seq<WalkEntry>)
    ensures IndexDrive(db, walk).1 == |Successes(walk)|
    decreases |walk|
  {
    if |walk| > 0 {
      IndexCountsSuccesses(db, walk[..|walk| - 1]);
    }
  }

  /** Each successful entry consumes exactly one fresh rowid; failed ones none. */
  lemma {:induction false} IndexIssuesOneRowIdPerSuccess(db: Db, walk: seq<WalkEntry>)
    ensures NewRowId(IndexDrive(db, walk).0.files) == NewRowId(db.files) + IndexDrive(db, walk).1
    decreases |walk|
  {
    if |walk| > 0 {
      IndexIssuesOneRowIdPerSuccess(db, walk[..|walk| - 1]);
    }
  }

  /** Indexing keeps the tables well formed: one row per path, ascending
      rowids, and child rows still name only rowids already issued. */
  lemma {:induction false} IndexPreservesWellFormed(db: Db, walk: seq<WalkEntry>)
    requires DbWellFormed(db)
    ensures DbWellFormed(IndexDrive(db, walk).0)
    decreases |walk|
  {
    if |walk| > 0 {
      IndexPreservesWellFormed(db, walk[..|walk| - 1]);
      IndexIssuesOneRowIdPerSuccess(db, walk[..|walk| - 1]);
      IndexIssuesOneRowIdPerSuccess(db, walk);
    }
  }

  /** Indexing never makes a content or match row join a non-archive row,
      even when the database holds rows from earlier runs. */
  lemma {:induction false} IndexKeepsChildrenJoinArchives(db: Db, walk: seq<WalkEntry>)
    requires DbWellFormed(db) && ChildrenJoinArchives(db)
    ensures ChildrenJoinArchives(IndexDrive(db, walk).0)
    decreases |walk|
  {
    if |walk| > 0 {
      var prefix, last := walk[..|walk| - 1], walk[|walk| - 1];
      IndexKeepsChildrenJoinArchives(db, prefix);
      IndexPreservesWellFormed(db, prefix);
      if Succeeds(last) {
        UpsertKeepsChildrenJoinArchives(IndexDrive(db, prefix).0, EntryPath(last), EntryMeta(last));
      }
    }
  }

  /** A failed stat changes nothing: indexing the walk is the same as
      indexing only its successful entries, in the same order. */
  lemma {:induction false} IndexSkipsFailures(db: Db, walk: seq<WalkEntry>)
    ensures IndexDrive(db, walk) == IndexDrive(db, Successes(walk))
    decreases |walk|
  {
    if |walk| > 0 {
      var prefix := walk[..|walk| - 1];
      var last := walk[|walk| - 1];
      IndexSkipsFailures(db, prefix);
      var s := Successes(walk);
      if Succeeds(last) {
        assert s == Successes(prefix) + [last];
        IndexDriveAppend(db, Successes(prefix), last);
      } else {
        assert s == Successes(prefix);
      }
    }
  }

  /** The walk's view grows one entry at a time: a successful last entry
      overrides whatever earlier entries said about its path. */
  lemma LatestMetaStep(walk: seq<WalkEntry>)
    requires |walk| > 0
    ensures var prefix, last := walk[..|walk| - 1], walk[|walk| - 1];
      LatestMeta(walk) ==
        if Succeeds(last) then LatestMeta(prefix)[EntryPath(last) := EntryMeta(last)]
        else LatestMeta(prefix)
  {
    var prefix, last := walk[..|walk| - 1], walk[|walk| - 1];
    var expected := if Succeeds(last) then LatestMeta(prefix)[EntryPath(last) := EntryMeta(last)]
      else LatestMeta(prefix);
    forall q
      ensures q in LatestMeta(walk) <==> q in expected
    {
      SuccessPathsHaveLast(walk, q);
      SuccessPathsHaveLast(prefix, q);
    }
    forall q | q in LatestMeta(walk)
      ensures LatestMeta(walk)[q] == expected[q]
    {
      SuccessPathsHaveLast(walk, q);
      if !(Succeeds(last) && q == EntryPath(last)) {
        SuccessPathsHaveLast(prefix, q);
      }
    }
  }

  lemma UnionUpdate<K, V>(a: map<K, V>, b: map<K, V>, k: K, v: V)
    ensures (a + b)[k := v] == a + b[k := v]
  {
  }

  lemma UnionIdempotent<K, V>(a: map<K, V>, b: map<K, V>)
    ensures (a + b) + b == a + b
  {
  }

  /** After indexing, the table records for every path the metadata of the
      latest successful entry for it, and keeps what it had for every other
      path. */
  lemma {:induction false} IndexSnapshot(db: Db, walk: seq<WalkEntry>)
    ensures Snapshot(IndexDrive(db, walk).0.files) == Snapshot(db.files) + LatestMeta(walk)
    decreases |walk|
  {
    if |walk| == 0 {
      assert LatestMeta(walk) == map[];
    } else {
      var prefix, last := walk[..|walk| - 1], walk[|walk| - 1];
      IndexSnapshot(db, prefix);
      LatestMetaStep(walk);
      if Succeeds(last) {
        SnapshotInsertOrReplace(IndexDrive(db, prefix).0.files, EntryPath(last), EntryMeta(last));
        UnionUpdate(Snapshot(db.files), LatestMeta(prefix), EntryPath(last), EntryMeta(last));
      }
    }
  }

  /** Indexing an unchanged tree a second time records the same thing for
      every path as the first pass did: one row per path, latest metadata. */
  lemma IndexIdempotent(db: Db, walk: seq<WalkEntry>)
    ensures var once := IndexDrive(db, walk).0;
      Snapshot(IndexDrive(once, walk).0.files) == Snapshot(once.files)
  {
    var once := IndexDrive(db, walk).0;
    IndexSnapshot(db, walk);
    IndexSnapshot(once, walk);
    UnionIdempotent(Snapshot(db.files), LatestMeta(walk));
  }

  /** Every path the walk stat-ed gets a rowid issued during this pass, so
      content rows written for an earlier rowid of that path no longer
      reach it: a re-indexed archive looks unanalysed until it is analysed
      again. */
  lemma {:induction false} IndexedPathsGetFreshRowIds(db: Db, walk: seq<WalkEntry>, p: string)
    requires p in SuccessPaths(walk)
    ensures var files := IndexDrive(db, walk).0.files;
      Lookup(files, p).Some? && Lookup(files, p).value.id >= NewRowId(db.files)
    decreases |walk|
  {
    var prefix := walk[..|walk| - 1];
    var last := walk[|walk| - 1];
    SuccessPathsHaveLast(walk, p);
    var prior := IndexDrive(db, prefix).0.files;
    if Succeeds(last) {
      LookupInsertOrReplace(prior, EntryPath(last), EntryMeta(last), p);
    }
    if Succeeds(last) && EntryPath(last) == p {
      IndexIssuesOneRowIdPerSuccess(db, prefix);
    } else {
      SuccessPathsHaveLast(prefix, p);
      IndexedPathsGetFreshRowIds(db, prefix, p);
    }
  }

  /** Consequence for the later stages: right after indexing, a path the walk
      stat-ed has no content rows under its current rowid. */
  lemma IndexedPathsHaveNoContent(db: Db, walk: seq<WalkEntry>, p: string)
    requires DbWellFormed(db)
    requires p in SuccessPaths(walk)
    ensures var after := IndexDrive(db, walk).0;
      Lookup(after.files, p).Some? && ContentPaths(after.contents, Lookup(after.files, p).value.id) == []
  {
    IndexedPathsGetFreshRowIds(db, walk, p);
    var after := IndexDrive(db, walk).0;
    FreshIdHasNoContent(db, Lookup(after.files, p).value.id);
  }
}

=== FILE: inspector.dfy ===
/** `ZipAnalyzer.analyze_zip_files`: every `files` row whose path is LIKE
    '%.zip' is opened, and one `zip_contents` row is inserted per entry of
    its central directory. One `try` covers the whole archive: an archive
    that fails to open contributes no row, an entry whose timestamp does not
    convert or whose size overflows a SQLite INTEGER ends that archive's
    loop with the rows before it kept, and in both cases the stage carries
    on with the next archive. Opening archives is an input: a `Reader` says
    what opening each path yields. */
module Inspector {
  import opened Wrappers
  import opened Paths
  import opened Store

  /** One `ZipInfo`: `filename`, `file_size` and `date_time`. The timestamp
      is `None` where `datetime(*date_time)` raises: a DOS date may hold a
      zero day or month, a month above 12, a day past the end of its month,
      an hour from 24 to 31, a minute from 60 to 63 or a second of 60 or 62,
      all of which `datetime` rejects. The size is unbounded: a zip64 entry
      carries an unsigned 8-byte `file_size`. */
  datatype ArchiveEntry = ArchiveEntry(name: string, size: nat, modified: Option<int>)

  /** SQLite stores a signed 64-bit INTEGER; binding a Python int at or
      above this bound raises `OverflowError` in the `INSERT`. */
  const SqliteIntLimit: nat := 0x8000_0000_0000_0000

  /** The `INSERT` of an entry's row succeeds: its timestamp converts and
      its size fits a SQLite INTEGER. */
  predicate Writable(e: ArchiveEntry)
  {
    e.modified.Some? && e.size < SqliteIntLimit
  }

  /** What `zipfile.ZipFile(path).infolist()` gives: an exception (missing
      file, truncated or corrupt container) or the list of entries. */
  datatype Archive = Unreadable | Entries(items: seq<ArchiveEntry>)

  type Reader = map<string, Archive>

  /** A path the reader knows nothing about cannot be opened. */
  function Open(reader: Reader, path: string): Archive
  {
    if path in reader then reader[path] else Unreadable
  }

  /** How many leading entries the loop inserts before the first one whose
      row cannot be written (all of them if every one can). */
  function WritablePrefix(items: seq<ArchiveEntry>): (n: nat)
    ensures n <= |items|
    ensures forall i :: 0 <= i < n ==> Writable(items[i])
    ensures n < |items| ==> !Writable(items[n])
  {
    if |items| == 0 || !Writable(items[0]) then 0
    else
      var n := WritablePrefix(items[1..]);
      assert forall i :: 0 < i < n + 1 ==> items[i] == items[1..][i - 1];
      1 + n
  }

  /** The rows one archive contributes, as the loop writes them: none if it
      fails to open; otherwise one per entry, in central-directory order,
      tagged with the archive's rowid, stopping before the first entry whose
      row cannot be written. */
  function EntryRows(zipId: nat, archive: Archive): (r: seq<ContentRow>)
    ensures archive.Unreadable? ==> r == []
    ensures archive.Entries? ==> |r| == WritablePrefix(archive.items)
    ensures archive.Entries? ==> forall i :: 0 <= i < |r| ==>
      r[i] == ContentRow(zipId, archive.items[i].name, archive.items[i].size, archive.items[i].modified.value)
    ensures forall row :: row in r ==> row.zipId == zipId
  {
    match archive
    case Unreadable => []
    case Entries(items) =>
      var n := WritablePrefix(items);
      seq(n, i requires 0 <= i < n => ContentRow(zipId, items[i].name, items[i].size, items[i].modified.value))
  }

  /** The entry names the loop records for an archive. */
  function EntryNames(archive: Archive): (r: seq<string>)
    ensures archive.Unreadable? ==> r == []
    ensures archive.Entries? ==> |r| == WritablePrefix(archive.items)
    ensures archive.Entries? ==> forall i :: 0 <= i < |r| ==> r[i] == archive.items[i].name
  {
    match archive
    case Unreadable => []
    case Entries(items) =>
      var n := WritablePrefix(items);
      seq(n, i requires 0 <= i < n => items[i].name)
  }

  /** An opened archive is recorded in full exactly when every entry's row
      can be written; otherwise only a proper prefix of its entries is. */
  lemma EntryRowsComplete(zipId: nat, items: seq<ArchiveEntry>)
    ensures |EntryRows(zipId, Entries(items))| == |items| <==>
      forall i :: 0 <= i < |items| ==> Writable(items[i])
    ensures RowNames(EntryRows(zipId, Entries(items))) == EntryNames(Entries(items))
  {
  }

  /** The per-archive step as evidently intended: an archive whose entries
      cannot all be recorded is skipped as a whole, like one that fails to
      open, so an archive has a row for every entry or none at all. */
  function AtomicEntryRows(zipId: nat, archive: Archive): (r: seq<ContentRow>)
    ensures r == [] || (archive.Entries? && |r| == |archive.items| &&
      forall i :: 0 <= i < |r| ==> r[i].pathInZip == archive.items[i].name)
    ensures archive.Entries? && (forall i :: 0 <= i < |archive.items| ==> Writable(archive.items[i])) ==>
      r == EntryRows(zipId, archive)
  {
    if archive.Entries? && WritablePrefix(archive.items) == |archive.items| then EntryRows(zipId, archive) else []
  }

  /** The rows appended for a list of archives, processed in order. */
  function NewContent(reader: Reader, archives: seq<FileRow>): (r: seq<ContentRow>)
    ensures forall row :: row in r ==> exists a :: a in archives && a.id == row.zipId
  {
    if |archives| == 0 then []
    else
      var rest := NewContent(reader, archives[1..]);
      assert forall row :: row in rest ==> exists a :: a in archives && a.id == row.zipId by {
        forall row | row in rest
          ensures exists a :: a in archives && a.id == row.zipId
        {
          var a :| a in archives[1..] && a.id == row.zipId;
          assert a in archives;
        }
      }
      EntryRows(archives[0].id, Open(reader, archives[0].path)) + rest
  }

  /** The analysis pass over the archive rows in the order the query plan
      `rank` returns them. Only content rows are written; they are appended,
      never replacing earlier ones; each new row belongs to an archive row. */
  function AnalyzeZipFiles(db: Db, reader: Reader, rank: ScanOrder): (r: Db)
    ensures r.files == db.files && r.matches == db.matches
    ensures |db.contents| <= |r.contents| && r.contents[..|db.contents|] == db.contents
    ensures forall i :: |db.contents| <= i < |r.contents| ==>
      exists a :: a in db.files && IsArchivePath(a.path) && a.id == r.contents[i].zipId
    ensures DbWellFormed(db) ==> DbWellFormed(r)
  {
    var added := NewContent(reader, ArchiveScan(db.files, rank));
    NewRowsBelongToArchives(db.files, reader, rank);
    var r := db.(contents := db.contents + added);
    assert forall i :: |db.contents| <= i < |r.contents| ==> r.contents[i] in added;
    r
  }

  lemma NewRowsBelongToArchives(files: seq<FileRow>, reader: Reader, rank: ScanOrder)
    ensures forall row :: row in NewContent(reader, ArchiveScan(files, rank)) ==>
      row.zipId < NewRowId(files) && exists a :: a in files && IsArchivePath(a.path) && a.id == row.zipId
  {
    forall row | row in NewContent(reader, ArchiveScan(files, rank))
      ensures row.zipId < NewRowId(files)
      ensures exists a :: a in files && IsArchivePath(a.path) && a.id == row.zipId
    {
      var a :| a in ArchiveScan(files, rank) && a.id == row.zipId;
      assert a in files;
    }
  }

  /** The archive at position `k` of the list gets exactly the rows of its
      own entries, when rowids are distinct. */
  lemma {:induction false} NewContentForMember(reader: Reader, archives: seq<FileRow>, k: nat)
    requires IdsDistinct(archives)
    requires k < |archives|
    ensures RowsFor(NewContent(reader, archives), archives[k].id) ==
      EntryRows(archives[k].id, Open(reader, archives[k].path))
    decreases |archives|
  {
    var id := archives[k].id;
    var head := EntryRows(archives[0].id, Open(reader, archives[0].path));
    var rest := NewContent(reader, archives[1..]);
    RowsForAppend(head, rest, id);
    assert forall j :: 0 <= j < |archives| - 1 ==> archives[1..][j] == archives[j + 1];
    if k == 0 {
      NewContentForAbsent(reader, archives[1..], id);
      RowsForAllTagged(head, id);
    } else {
      RowsForNoneTagged(head, id);
      NewContentForMember(reader, archives[1..], k - 1);
    }
  }

  /** A rowid no archive in the list carries gets no rows. */
  lemma {:induction false} NewContentForAbsent(reader: Reader, archives: seq<FileRow>, id: nat)
    requires forall k :: 0 <= k < |archives| ==> archives[k].id != id
    ensures RowsFor(NewContent(reader, archives), id) == []
    decreases |archives|
  {
    if |archives| > 0 {
      var head := EntryRows(archives[0].id, Open(reader, archives[0].path));
      RowsForAppend(head, NewContent(reader, archives[1..]), id);
      RowsForNoneTagged(head, id);
      NewContentForAbsent(reader, archives[1..], id);
    }
  }

  lemma RowsForAllTagged(rows: seq<ContentRow>, id: nat)
    requires forall row :: row in rows ==> row.zipId == id
    ensures RowsFor(rows, id) == rows
  {
  }

  lemma RowsForNoneTagged(rows: seq<ContentRow>, id: nat)
    requires forall row :: row in rows ==> row.zipId != id
    ensures RowsFor(rows, id) == []
  {
  }

  /** After analysis every archive row has gained exactly the rows its loop
      writes, in order (none if it failed to open, a prefix if a timestamp
      did not convert or an entry is oversize; neither affects any other
      archive), and every other file has gained none. This holds in
      whatever order the archives are scanned. */
  lemma AnalyzePerFile(db: Db, reader: Reader, rank: ScanOrder, f: FileRow)
    requires FilesWellFormed(db.files)
    requires f in db.files
    ensures RowsFor(AnalyzeZipFiles(db, reader, rank).contents, f.id) ==
      RowsFor(db.contents, f.id) + (if IsArchivePath(f.path) then EntryRows(f.id, Open(reader, f.path)) else [])
  {
    var archives := ArchiveScan(db.files, rank);
    var added := NewContent(reader, archives);
    RowsForAppend(db.contents, added, f.id);
    if IsArchivePath(f.path) {
      var k :| 0 <= k < |archives| && archives[k] == f;
      NewContentForMember(reader, archives, k);
    } else {
      forall k | 0 <= k < |archives|
        ensures archives[k].id != f.id
      {
        var j :| 0 <= j < |db.files| && db.files[j] == archives[k];
        var i :| 0 <= i < |db.files| && db.files[i] == f;
        assert i != j;
      }
      NewContentForAbsent(reader, archives, f.id);
    }
  }

  /** The names the matching stage will read for a file after analysis: its
      earlier names followed by the names of the entries its archive's loop
      recorded, one per entry, in central-directory order. */
  lemma AnalyzedNames(db: Db, reader: Reader, rank: ScanOrder, f: FileRow)
    requires FilesWellFormed(db.files)
    requires f in db.files
    ensures ContentPaths(AnalyzeZipFiles(db, reader, rank).contents, f.id) ==
      ContentPaths(db.contents, f.id) + (if IsArchivePath(f.path) then EntryNames(Open(reader, f.path)) else [])
  {
    var after := AnalyzeZipFiles(db, reader, rank).contents;
    var added := if IsArchivePath(f.path) then EntryRows(f.id, Open(reader, f.path)) else [];
    AnalyzePerFile(db, reader, rank, f);
    ContentPathsAreRowNames(after, f.id);
    ContentPathsAreRowNames(db.contents, f.id);
    RowNamesAppend(RowsFor(db.contents, f.id), added);
    assert RowNames(added) == (if IsArchivePath(f.path) then EntryNames(Open(reader, f.path)) else []);
  }

  /** Analysis never makes a content row join a non-archive row. */
  lemma AnalyzeKeepsChildrenJoinArchives(db: Db, reader: Reader, rank: ScanOrder)
    requires FilesWellFormed(db.files) && ChildrenJoinArchives(db)
    ensures ChildrenJoinArchives(AnalyzeZipFiles(db, reader, rank))
  {
    var after := AnalyzeZipFiles(db, reader, rank);
    forall c, f | c in after.contents && f in db.files && f.id == c.zipId
      ensures IsArchivePath(f.path)
    {
      var i :| 0 <= i < |after.contents| && after.contents[i] == c;
      if i < |db.contents| {
        assert c in db.contents;
      } else {
        var a :| a in db.files && IsArchivePath(a.path) && a.id == c.zipId;
        RowIdNamesOneRow(db.files, a, f);
      }
    }
  }
}

=== FILE: matcher.dfy ===
/** `ZipAnalyzer.find_potential_extractions` with its two helpers:
    `_find_matching_directories` proposes the sibling directories whose name
    contains the archive's stem, `_calculate_extraction_confidence` scores
    each against the archive's entry names, and a candidate scoring strictly
    above 0.7 is recorded in `potential_matches`. */
module Matcher {
  import opened Wrappers
  import opened Sequences
  import opened Paths
  import opened Scores
  import opened FileSystem
  import opened Store

  /** Listing entry `name` of directory `parent` is a candidate extraction
      directory for an archive with stem `stem`. */
  predicate Qualifies(fs: Tree, parent: string, stem: string, name: string)
  {
    IsDir(fs, Join(parent, name)) && Contains(name, stem)
  }

  /** The loop of `_find_matching_directories` over a listing. */
  function Candidates(fs: Tree, parent: string, stem: string, names: seq<string>): (r: seq<string>)
    ensures |r| <= |names|
    ensures forall c :: c in r <==> exists e :: e in names && c == Join(parent, e) && Qualifies(fs, parent, stem, e)
    ensures Distinct(names) ==> Distinct(r)
  {
    if |names| == 0 then []
    else
      var rest := Candidates(fs, parent, stem, names[1..]);
      assert forall e :: e in names <==> e == names[0] || e in names[1..];
      var head := if Qualifies(fs, parent, stem, names[0]) then [Join(parent, names[0])] else [];
      assert Distinct(names) ==> Distinct(head + rest) by {
        if Distinct(names) {
          DistinctTail(names);
          forall c | c in head
            ensures c !in rest
          {
            if c in rest {
              var e :| e in names[1..] && c == Join(parent, e);
              JoinInjective(parent, e, names[0]);
            }
          }
          DistinctAppend(head, rest);
        }
      }
      head + rest
  }

  /** Candidates come out in listing order: extending the listing by one
      entry extends the candidates by that entry at most. */
  lemma {:induction false} CandidatesInListingOrder(fs: Tree, parent: string, stem: string, names: seq<string>, e: string)
    ensures Candidates(fs, parent, stem, names + [e]) ==
      Candidates(fs, parent, stem, names) + (if Qualifies(fs, parent, stem, e) then [Join(parent, e)] else [])
    decreases |names|
  {
    if |names| == 0 {
      assert names + [e] == [e];
    } else {
      assert (names + [e])[0] == names[0];
      assert (names + [e])[1..] == names[1..] + [e];
      CandidatesInListingOrder(fs, parent, stem, names[1..], e);
    }
  }

  /** `_find_matching_directories(zip_path, zip_name)`: `None` where
      `os.listdir` of the archive's parent raises; otherwise every entry of
      the parent that is a directory and whose name contains `zipName`, each
      once, in listing order. */
  function FindMatchingDirectories(fs: Tree, zipPath: string, zipName: string): (r: Option<seq<string>>)
    ensures r.None? <==> !Listable(fs, Parent(zipPath))
    ensures r.Some? ==> forall c :: c in r.value <==>
      exists e :: e in fs[Parent(zipPath)].entries && c == Join(Parent(zipPath), e) && IsDir(fs, c) && Contains(e, zipName)
    ensures r.Some? && ListingsDistinct(fs) ==> Distinct(r.value)
  {
    var parent := Parent(zipPath);
    match ListDir(fs, parent)
    case None => None
    case Some(names) => Some(Candidates(fs, parent, zipName, names))
  }

  /** `d` is one of the directories proposed for the archive at `zipPath`. */
  predicate Proposed(fs: Tree, zipPath: string, d: string)
  {
    var r := FindMatchingDirectories(fs, zipPath, Stem(Name(zipPath)));
    r.Some? && d in r.value
  }

  /** Number of the archive's entry names found under `dir`. */
  function MatchedCount(fs: Tree, dir: string, names: seq<string>): (n: nat)
    ensures n <= |names|
  {
    if |names| == 0 then 0
    else MatchedCount(fs, dir, names[..|names| - 1]) + (if Exists(fs, Join(dir, names[|names| - 1])) then 1 else 0)
  }

  /** The score of candidate `dir` for an archive with entry names `names`. */
  function ExtractionConfidence(fs: Tree, names: seq<string>, dir: string): (c: Confidence)
    ensures Valid(c) && c.total == |names|
    ensures |names| == 0 ==> Numerator(c) == 0 && !RecordsMatch(c)
  {
    Confidence(MatchedCount(fs, dir, names), |names|)
  }

  /** `_calculate_extraction_confidence`, written as the loop it is. */
  method CalculateExtractionConfidence(fs: Tree, names: seq<string>, dir: string) returns (c: Confidence)
    ensures c == ExtractionConfidence(fs, names, dir)
    ensures c.matched <= c.total == |names|
  {
    var matched := 0;
    var i := 0;
    while i < |names|
      invariant 0 <= i <= |names|
      invariant matched == MatchedCount(fs, dir, names[..i])
    {
      assert names[..i + 1][..i] == names[..i];
      if Exists(fs, Join(dir, names[i])) {
        matched := matched + 1;
      }
      i := i + 1;
    }
    assert names[..i] == names;
    c := Confidence(matched, |names|);
  }

  /** Every entry counts at most once, and the count is full exactly when every
      entry exists under the candidate and zero exactly when none does. */
  lemma {:induction false} MatchedCountExtremes(fs: Tree, dir: string, names: seq<string>)
    ensures MatchedCount(fs, dir, names) == |names| <==> forall i :: 0 <= i < |names| ==> Exists(fs, Join(dir, names[i]))
    ensures MatchedCount(fs, dir, names) == 0 <==> forall i :: 0 <= i < |names| ==> !Exists(fs, Join(dir, names[i]))
    decreases |names|
  {
    if |names| > 0 {
      var prefix := names[..|names| - 1];
      MatchedCountExtremes(fs, dir, prefix);
      assert forall i :: 0 <= i < |prefix| ==> prefix[i] == names[i];
    }
  }

  /** An archive all of whose entries exist under `dir` scores 1 and is
      reported at any threshold up to 1; one with none scores 0. */
  lemma FullConfidenceIffAllPresent(fs: Tree, names: seq<string>, dir: string)
    requires |names| > 0
    ensures AtLeast(ExtractionConfidence(fs, names, dir), Fraction(1, 1)) <==>
      forall i :: 0 <= i < |names| ==> Exists(fs, Join(dir, names[i]))
    ensures Numerator(ExtractionConfidence(fs, names, dir)) == 0 <==>
      forall i :: 0 <= i < |names| ==> !Exists(fs, Join(dir, names[i]))
  {
    MatchedCountExtremes(fs, dir, names);
  }

  /** The recording step for one archive: every candidate whose score is
      strictly above 0.7 becomes a row, in candidate order; there is no
      best-match selection. */
  function ScoreCandidates(fs: Tree, zipId: nat, names: seq<string>, dirs: seq<string>): (r: seq<MatchRow>)
    ensures forall m :: m in r ==>
      && m.zipId == zipId && m.extractedPath in dirs
      && m.confidence == ExtractionConfidence(fs, names, m.extractedPath)
      && RecordsMatch(m.confidence)
    ensures forall d :: d in dirs && RecordsMatch(ExtractionConfidence(fs, names, d)) ==>
      MatchRow(zipId, d, ExtractionConfidence(fs, names, d)) in r
    ensures Distinct(dirs) ==> Distinct(r)
  {
    if |dirs| == 0 then []
    else
      var c := ExtractionConfidence(fs, names, dirs[0]);
      var rest := ScoreCandidates(fs, zipId, names, dirs[1..]);
      assert forall d :: d in dirs <==> d == dirs[0] || d in dirs[1..];
      var head := if RecordsMatch(c) then [MatchRow(zipId, dirs[0], c)] else [];
      assert Distinct(dirs) ==> Distinct(head + rest) by {
        if Distinct(dirs) {
          DistinctTail(dirs);
          DistinctAppend(head, rest);
        }
      }
      head + rest
  }

  /** The archive has content rows, so the pass scores it. */
  predicate HasContent(contents: seq<ContentRow>, a: FileRow)
  {
    |ContentPaths(contents, a.id)| > 0
  }

  /** The row the pass would write for archive `a` and directory `d`. */
  function Scored(fs: Tree, contents: seq<ContentRow>, a: FileRow, d: string): MatchRow
  {
    MatchRow(a.id, d, ExtractionConfidence(fs, ContentPaths(contents, a.id), d))
  }

  /** The row `m` is the one the pass writes for archive `a` and one of its
      proposed directories. */
  predicate RecordedFor(fs: Tree, contents: seq<ContentRow>, a: FileRow, m: MatchRow)
  {
    && a.id == m.zipId
    && HasContent(contents, a)
    && Proposed(fs, a.path, m.extractedPath)
    && m.confidence == ExtractionConfidence(fs, ContentPaths(contents, a.id), m.extractedPath)
    && RecordsMatch(m.confidence)
  }

  /** The archive stops the pass: it has content rows, so its parent is
      listed, and the listing raises. */
  predicate Blocks(fs: Tree, contents: seq<ContentRow>, a: FileRow)
  {
    HasContent(contents, a) && !Listable(fs, Parent(a.path))
  }

  /** Every archive row of the table that has content rows has a parent
      that can be listed, so no archive stops the pass. */
  predicate ParentsListable(db: Db, fs: Tree)
  {
    forall a :: a in db.files && IsArchivePath(a.path) && HasContent(db.contents, a) ==> Listable(fs, Parent(a.path))
  }

  /** Position of the first archive that stops the pass, or the length of
      the list when none does. */
  function FirstBlocked(fs: Tree, contents: seq<ContentRow>, archives: seq<FileRow>): (n: nat)
    ensures n <= |archives|
    ensures forall j :: 0 <= j < n ==> !Blocks(fs, contents, archives[j])
    ensures n < |archives| ==> Blocks(fs, contents, archives[n])
  {
    var flags := seq(|archives|, j requires 0 <= j < |archives| => Blocks(fs, contents, archives[j]));
    assert forall j :: 0 <= j < |archives| ==> flags[j] == Blocks(fs, contents, archives[j]);
    FirstTrue(flags)
  }

  /** `FirstBlocked` unrolled once. */
  lemma FirstBlockedStep(fs: Tree, contents: seq<ContentRow>, archives: seq<FileRow>)
    requires |archives| > 0
    ensures FirstBlocked(fs, contents, archives) ==
      if Blocks(fs, contents, archives[0]) then 0 else 1 + FirstBlocked(fs, contents, archives[1..])
  {
    var tail := archives[1..];
    assert forall j :: 0 <= j < |tail| ==> tail[j] == archives[j + 1];
  }

  /** Rows appended by the pass, and the parent directory whose listing
      raised, if one did. */
  datatype PassResult = PassResult(rows: seq<MatchRow>, failedDir: Option<string>)

  /** One iteration of the loop for archive `a`: the rows it writes, or
      `None` where listing its parent raises. An archive without content rows
      is skipped before its parent is listed. */
  function ArchiveStep(fs: Tree, contents: seq<ContentRow>, a: FileRow): (r: Option<seq<MatchRow>>)
    ensures r.None? <==> Blocks(fs, contents, a)
    ensures r.Some? ==> forall m :: m in r.value <==> RecordedFor(fs, contents, a, m)
    ensures r.Some? && ListingsDistinct(fs) ==> Distinct(r.value)
  {
    var names := ContentPaths(contents, a.id);
    if |names| == 0 then Some([])
    else
      match FindMatchingDirectories(fs, a.path, Stem(Name(a.path)))
      case None => None
      case Some(dirs) =>
        var rows := ScoreCandidates(fs, a.id, names, dirs);
        assert forall m :: RecordedFor(fs, contents, a, m) ==> m == MatchRow(a.id, m.extractedPath, m.confidence);
        Some(rows)
  }

  /** The loop of `find_potential_extractions` over the archive rows. A
      parent that cannot be listed raises out of the loop, ending the pass:
      no row is written for that archive or any archive after it. */
  function ExtractionPass(fs: Tree, contents: seq<ContentRow>, archives: seq<FileRow>): (r: PassResult)
    ensures forall m :: m in r.rows ==> exists a :: a in archives && RecordedFor(fs, contents, a, m)
    ensures r.failedDir.None? <==>
      forall a :: a in archives && HasContent(contents, a) ==> Listable(fs, Parent(a.path))
    ensures r.failedDir.None? ==> forall a, d ::
      a in archives && RecordedFor(fs, contents, a, Scored(fs, contents, a, d)) ==> Scored(fs, contents, a, d) in r.rows
    decreases |archives|
  {
    if |archives| == 0 then PassResult([], None)
    else
      var a := archives[0];
      assert forall x :: x in archives <==> x == a || x in archives[1..];
      match ArchiveStep(fs, contents, a)
      case None => PassResult([], Some(Parent(a.path)))
      case Some(rows) =>
        var rest := ExtractionPass(fs, contents, archives[1..]);
        PassResult(rows + rest.rows, rest.failedDir)
  }

  /** The pass unrolled once, as far as where it fails is concerned. */
  lemma PassFailedDirStep(fs: Tree, contents: seq<ContentRow>, archives: seq<FileRow>)
    requires |archives| > 0
    ensures ExtractionPass(fs, contents, archives).failedDir ==
      if Blocks(fs, contents, archives[0]) then Some(Parent(archives[0].path))
      else ExtractionPass(fs, contents, archives[1..]).failedDir
  {
    var step := ArchiveStep(fs, contents, archives[0]);
  }

  /** Where the pass stops, read off the archives alone: the parent of the
      first one that blocks, if any. */
  function StopDir(fs: Tree, contents: seq<ContentRow>, archives: seq<FileRow>): Option<string>
    decreases |archives|
  {
    if |archives| == 0 then None
    else if Blocks(fs, contents, archives[0]) then Some(Parent(archives[0].path))
    else StopDir(fs, contents, archives[1..])
  }

  /** The pass fails exactly where `StopDir` says. */
  lemma {:induction false} PassFailsAtStopDir(fs: Tree, contents: seq<ContentRow>, archives: seq<FileRow>)
    ensures ExtractionPass(fs, contents, archives).failedDir == StopDir(fs, contents, archives)
    decreases |archives|
  {
    if |archives| > 0 {
      PassFailedDirStep(fs, contents, archives);
      PassFailsAtStopDir(fs, contents, archives[1..]);
    }
  }

  /** `StopDir` is the parent of the first archive that blocks. */
  lemma {:induction false} StopDirAtFirstBlocked(fs: Tree, contents: seq<ContentRow>, archives: seq<FileRow>)
    ensures var n := FirstBlocked(fs, contents, archives);
      StopDir(fs, contents, archives) == if n < |archives| then Some(Parent(archives[n].path)) else None
    decreases |archives|
  {
    if |archives| > 0 {
      var tail := archives[1..];
      FirstBlockedStep(fs, contents, archives);
      if !Blocks(fs, contents, archives[0]) {
        StopDirAtFirstBlocked(fs, contents, tail);
        var k := FirstBlocked(fs, contents, tail);
        if k < |tail| {
          assert archives[k + 1] == tail[k];
        }
      }
    }
  }

  /** The pass fails at the parent of the first archive that blocks, and
      runs to the end when none does. */
  lemma PassStopsAtFirstBlocked(fs: Tree, contents: seq<ContentRow>, archives: seq<FileRow>)
    ensures var n := FirstBlocked(fs, contents, archives);
      ExtractionPass(fs, contents, archives).failedDir == if n < |archives| then Some(Parent(archives[n].path)) else None
  {
    PassFailsAtStopDir(fs, contents, archives);
    StopDirAtFirstBlocked(fs, contents, archives);
  }

  /** "Recorded for one of the first `n` archives" splits into the first
      archive and the first `n - 1` of the rest. */
  lemma RecordedBeforeShift(fs: Tree, contents: seq<ContentRow>, archives: seq<FileRow>, m: MatchRow, n: nat)
    requires 0 < n <= |archives|
    ensures (exists j :: 0 <= j < n && RecordedFor(fs, contents, archives[j], m)) <==>
      RecordedFor(fs, contents, archives[0], m) ||
      exists j :: 0 <= j < n - 1 && RecordedFor(fs, contents, archives[1..][j], m)
  {
    var tail := archives[1..];
    if exists j :: 0 <= j < n - 1 && RecordedFor(fs, contents, tail[j], m) {
      var j :| 0 <= j < n - 1 && RecordedFor(fs, contents, tail[j], m);
      assert tail[j] == archives[j + 1];
    }
    if exists j :: 0 <= j < n && RecordedFor(fs, contents, archives[j], m) {
      var j :| 0 <= j < n && RecordedFor(fs, contents, archives[j], m);
      if j > 0 {
        assert archives[j] == tail[j - 1];
      }
    }
  }

  /** The rows of a pass are exactly the rows recorded for the archives
      before the first one that blocks: those after it are never reached. */
  lemma {:induction false} PassRowsExactly(fs: Tree, contents: seq<ContentRow>, archives: seq<FileRow>, m: MatchRow)
    ensures m in ExtractionPass(fs, contents, archives).rows <==>
      exists j :: 0 <= j < FirstBlocked(fs, contents, archives) && RecordedFor(fs, contents, archives[j], m)
    decreases |archives|
  {
    if |archives| > 0 && !Blocks(fs, contents, archives[0]) {
      var a, tail := archives[0], archives[1..];
      var n := FirstBlocked(fs, contents, archives);
      PassRowsExactly(fs, contents, tail, m);
      FirstBlockedStep(fs, contents, archives);
      RecordedBeforeShift(fs, contents, archives, m, n);
    }
  }

  /** No row is written twice in one pass: archives carry distinct rowids
      and a listing never repeats a name. */
  lemma {:induction false} PassRowsDistinct(fs: Tree, contents: seq<ContentRow>, archives: seq<FileRow>)
    requires IdsDistinct(archives) && ListingsDistinct(fs)
    ensures Distinct(ExtractionPass(fs, contents, archives).rows)
    decreases |archives|
  {
    if |archives| > 0 {
      var a, tail := archives[0], archives[1..];
      assert IdsDistinct(tail) by {
        assert forall j :: 0 <= j < |tail| ==> tail[j] == archives[j + 1];
      }
      PassRowsDistinct(fs, contents, tail);
      var restRows := ExtractionPass(fs, contents, tail).rows;
      if !Blocks(fs, contents, a) {
        var head := ArchiveStep(fs, contents, a).value;
        DistinctAppend(head, restRows);
      }
    }
  }

  /** How the stage ends: normally, or with the exception `os.listdir` raised
      for a parent directory. In both cases the rows inserted so far are in
      the database connection. */
  datatype StageOutcome = Completed(db: Db) | Aborted(db: Db, unlistable: string)

  /** Every row the pass writes belongs to an archive row of the table and
      names a rowid already issued. */
  lemma PassRowsBelongToArchives(db: Db, fs: Tree, rank: ScanOrder)
    ensures forall m :: m in ExtractionPass(fs, db.contents, ArchiveScan(db.files, rank)).rows ==>
      && m.zipId < NewRowId(db.files)
      && exists a :: a in db.files && IsArchivePath(a.path) && RecordedFor(fs, db.contents, a, m)
  {
    var archives := ArchiveScan(db.files, rank);
    forall m | m in ExtractionPass(fs, db.contents, archives).rows
      ensures m.zipId < NewRowId(db.files)
      ensures exists a :: a in db.files && IsArchivePath(a.path) && RecordedFor(fs, db.contents, a, m)
    {
      var a :| a in archives && RecordedFor(fs, db.contents, a, m);
      assert a in db.files && IsArchivePath(a.path);
      RowIdIssued(db.files, m.zipId);
    }
  }

  /** The match table with the pass's rows appended: each appended row
      belongs to an archive row, and well-formedness is kept. */
  lemma AppendedRowsBelong(db: Db, fs: Tree, rank: ScanOrder)
    ensures var all := db.matches + ExtractionPass(fs, db.contents, ArchiveScan(db.files, rank)).rows;
      forall i :: |db.matches| <= i < |all| ==>
        exists a :: a in db.files && IsArchivePath(a.path) && RecordedFor(fs, db.contents, a, all[i])
    ensures var all := db.matches + ExtractionPass(fs, db.contents, ArchiveScan(db.files, rank)).rows;
      DbWellFormed(db) ==> DbWellFormed(db.(matches := all))
  {
    var rows := ExtractionPass(fs, db.contents, ArchiveScan(db.files, rank)).rows;
    var all := db.matches + rows;
    PassRowsBelongToArchives(db, fs, rank);
    assert forall i :: |db.matches| <= i < |all| ==> all[i] in rows;
    if DbWellFormed(db) {
      AppendMatchesWellFormed(db, rows);
    }
  }

  /** The pass over the scan, stated over the table: it runs to the end
      exactly when every archive row with content has a listable parent. */
  lemma PassCompletesIff(db: Db, fs: Tree, rank: ScanOrder)
    ensures ExtractionPass(fs, db.contents, ArchiveScan(db.files, rank)).failedDir.None? <==>
      ParentsListable(db, fs)
  {
  }

  /** `find_potential_extractions`, with the archive rows in the order the
      query plan `rank` returns them. Only `potential_matches` changes, by
      appending; every new row belongs to an archive row that has content
      rows, names a proposed directory and scores strictly above 0.7. The
      stage is cut short exactly when some archive with content rows has a
      parent that cannot be listed, and then by the first such archive in
      scan order; a complete stage records every qualifying pair. */
  function FindPotentialExtractions(db: Db, fs: Tree, rank: ScanOrder): (r: StageOutcome)
    ensures r.db.files == db.files && r.db.contents == db.contents
    ensures |db.matches| <= |r.db.matches| && r.db.matches[..|db.matches|] == db.matches
    ensures forall i :: |db.matches| <= i < |r.db.matches| ==>
      exists a :: a in db.files && IsArchivePath(a.path) && RecordedFor(fs, db.contents, a, r.db.matches[i])
    ensures r.Completed? <==>
      ParentsListable(db, fs)
    ensures DbWellFormed(db) ==> DbWellFormed(r.db)
  {
    var pass := ExtractionPass(fs, db.contents, ArchiveScan(db.files, rank));
    var updated := db.(matches := db.matches + pass.rows);
    AppendedRowsBelong(db, fs, rank);
    PassCompletesIff(db, fs, rank);
    Outcome(updated, pass.failedDir)
  }

  /** Wraps the rows written and the directory whose listing raised, if
      any, as the stage's end. */
  function Outcome(db: Db, failedDir: Option<string>): (r: StageOutcome)
    ensures r.db == db
    ensures r.Completed? <==> failedDir.None?
    ensures r.Aborted? ==> r.unlistable == failedDir.value
  {
    if failedDir.None? then Completed(db) else Aborted(db, failedDir.value)
  }

  /** A stage cut short names the parent of the first archive, in scan
      order, that has content rows and an unlistable parent. */
  lemma AbortedAtFirstBlocked(db: Db, fs: Tree, rank: ScanOrder)
    ensures var r := FindPotentialExtractions(db, fs, rank);
      var scan := ArchiveScan(db.files, rank);
      var n := FirstBlocked(fs, db.contents, scan);
      r.Aborted? ==> n < |scan| && r.unlistable == Parent(scan[n].path)
  {
    PassStopsAtFirstBlocked(fs, db.contents, ArchiveScan(db.files, rank));
  }

  /** A stage that runs to the end records every archive and candidate pair
      that scores strictly above 0.7. */
  lemma CompletedRecordsEveryPair(db: Db, fs: Tree, rank: ScanOrder, a: FileRow, d: string)
    requires a in db.files && IsArchivePath(a.path)
    requires RecordedFor(fs, db.contents, a, Scored(fs, db.contents, a, d))
    ensures var r := FindPotentialExtractions(db, fs, rank);
      r.Completed? ==> Scored(fs, db.contents, a, d) in r.db.matches
  {
    var pass := ExtractionPass(fs, db.contents, ArchiveScan(db.files, rank));
    assert forall m :: m in pass.rows ==> m in db.matches + pass.rows;
  }

  /** The rows the stage appends are exactly the rows recorded for the
      archives scanned before the first one that blocks, each written once
      when the listings repeat no name. */
  lemma StageRowsExactly(db: Db, fs: Tree, rank: ScanOrder, m: MatchRow)
    ensures var scan := ArchiveScan(db.files, rank);
      var added := FindPotentialExtractions(db, fs, rank).db.matches[|db.matches|..];
      m in added <==> exists j :: 0 <= j < FirstBlocked(fs, db.contents, scan) && RecordedFor(fs, db.contents, scan[j], m)
  {
    var scan := ArchiveScan(db.files, rank);
    var after := FindPotentialExtractions(db, fs, rank).db.matches;
    assert after[|db.matches|..] == ExtractionPass(fs, db.contents, scan).rows;
    PassRowsExactly(fs, db.contents, scan, m);
  }

  /** Within one run of the stage each (archive, directory) pair is written
      at most once. */
  lemma StageRowsDistinct(db: Db, fs: Tree, rank: ScanOrder)
    requires FilesWellFormed(db.files) && ListingsDistinct(fs)
    ensures Distinct(FindPotentialExtractions(db, fs, rank).db.matches[|db.matches|..])
  {
    var scan := ArchiveScan(db.files, rank);
    var after := FindPotentialExtractions(db, fs, rank).db.matches;
    assert after[|db.matches|..] == ExtractionPass(fs, db.contents, scan).rows;
    PassRowsDistinct(fs, db.contents, scan);
  }
}

=== FILE: paths.dfy ===
/** Text operations the analyzer relies on: the SQL `LIKE '%.zip'` test that
    selects archives, Python's substring test `needle in hay`, and the path
    splitting and joining done by `pathlib.Path` and `os.path.join`.
    Paths are strings with `/` as the only separator. */
module Paths {

  const Separator: char := '/'

  /** The suffix every archive path ends in, up to ASCII case. */
  const ArchiveExtension: string := ".zip"

  /** The pattern the analyzer hands to SQL `LIKE` to select archives. */
  const ArchivePattern: string := "%.zip"

  /** ASCII-only lower-casing: the case folding SQLite's LIKE applies. */
  function LowerAscii(c: char): char
  {
    if 'A' <= c <= 'Z' then (c as int + 32) as char else c
  }

  function LowerAsciiString(s: string): (r: string)
    ensures |r| == |s|
    ensures forall i :: 0 <= i < |s| ==> r[i] == LowerAscii(s[i])
  {
    seq(|s|, i requires 0 <= i < |s| => LowerAscii(s[i]))
  }

  /** SQLite `LIKE` without an ESCAPE clause: `%` matches any run of
      characters, `_` matches exactly one, every other pattern character
      matches itself up to ASCII case. */
  predicate Like(s: string, pattern: string)
    ensures '%' !in pattern && Like(s, pattern) ==> |s| == |pattern|
    decreases |s| + |pattern|
  {
    if |pattern| == 0 then |s| == 0
    else if pattern[0] == '%' then
      Like(s, pattern[1..]) || (|s| > 0 && Like(s[1..], pattern))
    else if pattern[0] == '_' then
      |s| > 0 && Like(s[1..], pattern[1..])
    else
      |s| > 0 && LowerAscii(s[0]) == LowerAscii(pattern[0]) && Like(s[1..], pattern[1..])
  }

  /** The direct reading of `LIKE '%.zip'`: the last four characters are
      ".zip" once ASCII-lower-cased, so ".ZIP" and ".Zip" qualify too. */
  predicate IsArchivePath(path: string)
  {
    |path| >= |ArchiveExtension| && LowerAsciiString(path[|path| - |ArchiveExtension|..]) == ArchiveExtension
  }

  /** A wildcard-free pattern matches exactly the strings of its length that
      agree with it character by character up to ASCII case. */
  lemma {:induction false} LikeLiteral(s: string, pattern: string)
    requires forall i :: 0 <= i < |pattern| ==> pattern[i] != '%' && pattern[i] != '_'
    ensures Like(s, pattern) <==>
      |s| == |pattern| && forall i :: 0 <= i < |s| ==> LowerAscii(s[i]) == LowerAscii(pattern[i])
    decreases |pattern|
  {
    if |pattern| == 0 {
    } else if |s| == 0 {
    } else {
      LikeLiteral(s[1..], pattern[1..]);
      if |s| == |pattern| && forall i :: 0 <= i < |s| ==> LowerAscii(s[i]) == LowerAscii(pattern[i]) {
        assert forall i :: 0 <= i < |s[1..]| ==> LowerAscii(s[1..][i]) == LowerAscii(pattern[1..][i]) by {
          forall i | 0 <= i < |s[1..]|
            ensures LowerAscii(s[1..][i]) == LowerAscii(pattern[1..][i])
          {
            assert s[1..][i] == s[i + 1];
            assert pattern[1..][i] == pattern[i + 1];
          }
        }
      }
      if Like(s, pattern) {
        forall i | 0 <= i < |s|
          ensures LowerAscii(s[i]) == LowerAscii(pattern[i])
        {
          if i > 0 {
            assert s[1..][i - 1] == s[i];
            assert pattern[1..][i - 1] == pattern[i];
          }
        }
      }
    }
  }

  /** `Like(s, ".zip")` holds exactly for four-character strings equal to
      ".zip" up to ASCII case. */
  lemma DotZipLiteral(s: string)
    ensures Like(s, ArchiveExtension) <==> |s| == 4 && LowerAsciiString(s) == ArchiveExtension
  {
    LikeLiteral(s, ArchiveExtension);
    assert forall i :: 0 <= i < 4 ==> LowerAscii(ArchiveExtension[i]) == ArchiveExtension[i];
    if |s| == 4 && LowerAsciiString(s) == ArchiveExtension {
      assert forall i :: 0 <= i < |s| ==> LowerAscii(s[i]) == LowerAsciiString(s)[i];
    }
    if Like(s, ArchiveExtension) {
      assert LowerAsciiString(s) == ArchiveExtension;
    }
  }

  /** The SQL pattern `'%.zip'` selects exactly the paths `IsArchivePath`
      accepts: a case-insensitive ".zip" suffix and nothing else. */
  lemma {:induction false} LikeArchivePattern(s: string)
    ensures Like(s, ArchivePattern) <==> IsArchivePath(s)
    decreases |s|
  {
    assert ArchivePattern[0] == '%' && ArchivePattern[1..] == ArchiveExtension;
    assert Like(s, ArchivePattern) <==>
      Like(s, ArchiveExtension) || (|s| > 0 && Like(s[1..], ArchivePattern));
    DotZipLiteral(s);
    if |s| > 0 {
      LikeArchivePattern(s[1..]);
      if |s| >= 5 {
        assert s[1..][|s[1..]| - 4..] == s[|s| - 4..];
      }
    }
  }

  /** `hay` begins with `prefix`. */
  predicate StartsWith(hay: string, prefix: string)
  {
    |prefix| <= |hay| && hay[..|prefix|] == prefix
  }

  /** Python's `needle in hay` on strings: `needle` occurs as a contiguous
      substring (the empty string occurs in every string). */
  predicate Contains(hay: string, needle: string)
    ensures Contains(hay, needle) ==> |needle| <= |hay|
    ensures |needle| == 0 ==> Contains(hay, needle)
    decreases |hay|
  {
    StartsWith(hay, needle) || (|hay| > 0 && Contains(hay[1..], needle))
  }

  /** `needle` occurs in `hay` starting at index `i`. */
  predicate OccursAt(hay: string, needle: string, i: int)
  {
    0 <= i && i + |needle| <= |hay| && hay[i..i + |needle|] == needle
  }

  /** `Contains` is exactly "occurs at some index". */
  lemma {:induction false} ContainsIffOccurs(hay: string, needle: string)
    ensures Contains(hay, needle) <==> exists i :: OccursAt(hay, needle, i)
    decreases |hay|
  {
    if StartsWith(hay, needle) {
      assert OccursAt(hay, needle, 0);
    } else if |hay| == 0 {
    } else {
      ContainsIffOccurs(hay[1..], needle);
      if exists i :: OccursAt(hay[1..], needle, i) {
        var i :| OccursAt(hay[1..], needle, i);
        assert hay[1..][i..i + |needle|] == hay[i + 1..i + 1 + |needle|];
        assert OccursAt(hay, needle, i + 1);
      }
      if exists i :: OccursAt(hay, needle, i) {
        var i :| OccursAt(hay, needle, i);
        assert i != 0;
        assert hay[1..][i - 1..i - 1 + |needle|] == hay[i..i + |needle|];
        assert OccursAt(hay[1..], needle, i - 1);
      }
    }
  }

  /** Index of the last occurrence of `c` in `s`, or -1 (Python's `rfind`). */
  function LastIndexOf(s: string, c: char): (r: int)
    ensures -1 <= r < |s|
    ensures r >= 0 ==> s[r] == c
    ensures forall k :: r < k < |s| ==> s[k] != c
  {
    if |s| == 0 then -1
    else if s[|s| - 1] == c then |s| - 1
    else LastIndexOf(s[..|s| - 1], c)
  }

  /** The final component of a path (`Path(p).name`). */
  function Name(path: string): string
  {
    path[LastIndexOf(path, Separator) + 1..]
  }

  /** The path with its final component removed (`Path(p).parent`); a path
      without a separator lives in ".". */
  function Parent(path: string): (r: string)
    ensures Separator !in path ==> r == "."
    ensures Separator in path ==>
      && StartsWith(path, r) && |r| < |path| && path[|r|] == Separator
      && Separator !in path[|r| + 1..]
  {
    var k := LastIndexOf(path, Separator);
    if k < 0 then "." else path[..k]
  }

  /** `os.path.join(dir, name)` for a relative `name`. */
  function Join(dir: string, name: string): string
  {
    dir + [Separator] + name
  }

  /** Joining onto the same directory keeps names apart. */
  lemma JoinInjective(dir: string, a: string, b: string)
    requires Join(dir, a) == Join(dir, b)
    ensures a == b
  {
    assert a == Join(dir, a)[|dir| + 1..];
    assert b == Join(dir, b)[|dir| + 1..];
  }

  /** Splitting a path that has a separator and joining the halves gives it back. */
  lemma JoinParentName(path: string)
    requires Separator in path
    ensures Join(Parent(path), Name(path)) == path
  {
    var k := LastIndexOf(path, Separator);
    assert path == path[..k] + [path[k]] + path[k + 1..];
  }

  /** Joining a separator-free name onto a directory and splitting again
      recovers both. */
  lemma ParentNameOfJoin(dir: string, name: string)
    requires Separator !in name
    ensures Name(Join(dir, name)) == name
    ensures Parent(Join(dir, name)) == dir
  {
    var p := Join(dir, name);
    var k := LastIndexOf(p, Separator);
    assert p[|dir|] == Separator;
    assert forall j :: |dir| < j < |p| ==> p[j] == name[j - |dir| - 1];
    assert k == |dir|;
    assert p[k + 1..] == name;
    assert p[..k] == dir;
  }

  /** `Path(p).stem` on a final component: the name up to its last '.',
      unless that dot is the first or the last character. */
  function Stem(name: string): (r: string)
    ensures StartsWith(name, r)
    ensures r != name ==>
      && 0 < |r| < |name| - 1 && name[|r|] == '.'
      && forall k :: |r| < k < |name| ==> name[k] != '.'
    ensures r == name ==> forall i :: 0 < i < |name| - 1 && name[i] == '.' ==>
      exists k :: i < k < |name| && name[k] == '.'
  {
    var i := LastIndexOf(name, '.');
    if 0 < i < |name| - 1 then name[..i] else name
  }

  /** An archive name has a dot four characters from its end and none after. */
  lemma ArchiveSuffixDots(name: string)
    requires IsArchivePath(name)
    ensures name[|name| - 4] == '.'
    ensures name[|name| - 3] != '.' && name[|name| - 2] != '.' && name[|name| - 1] != '.'
  {
    var n := |name|;
    var tail := name[n - 4..];
    assert LowerAscii(tail[0]) == '.' && LowerAscii(tail[1]) == 'z';
    assert LowerAscii(tail[2]) == 'i' && LowerAscii(tail[3]) == 'p';
  }

  /** The stem of an archive name is the name without its ".zip" suffix, except
      that a name that is nothing but the suffix (a dot-file) is its own stem. */
  lemma ArchiveStem(name: string)
    requires IsArchivePath(name)
    ensures |name| > 4 ==> Stem(name) == name[..|name| - 4]
    ensures |name| == 4 ==> Stem(name) == name
    ensures 0 < |Stem(name)|
  {
    var n := |name|;
    ArchiveSuffixDots(name);
    assert LastIndexOf(name, '.') == n - 4;
  }

  /** A name contains its own stem, so a directory named exactly like the
      archive's stem is always a candidate. */
  lemma ContainsStemPrefix(name: string, extra: string)
    ensures Contains(name + extra, name)
  {
    assert (name + extra)[..|name|] == name;
  }
}

=== FILE: pipeline.dfy ===
/** The stages in the order the command-line entry point and the indexing
    thread of the window run them: index, analyse, match, then query with
    the default threshold. The properties here hold across stages. */
module Pipeline {
  import opened Wrappers
  import opened Paths
  import opened Scores
  import opened FileSystem
  import opened Store
  import opened Indexer
  import opened Inspector
  import opened Matcher
  import opened Query

  /** The survey on the database the program opens (which may hold rows of
      earlier runs): the rows `get_redundant_zips()` returns after indexing,
      analysing and matching, or `None` when the matching stage raises, in
      which case the exception ends the program before any query. Each stage
      scans the archive rows in the order its query plan gives. */
  function Survey(db: Db, walk: seq<WalkEntry>, reader: Reader, fs: Tree, analyseRank: ScanOrder, matchRank: ScanOrder): (r: Option<seq<Redundant>>)
    ensures var analysed := AnalyzeZipFiles(IndexDrive(db, walk).0, reader, analyseRank);
      r.None? <==> !ParentsListable(analysed, fs)
    ensures var stage := FindPotentialExtractions(AnalyzeZipFiles(IndexDrive(db, walk).0, reader, analyseRank), fs, matchRank);
      r.Some? ==> forall x :: x in r.value <==>
        exists m, f :: m in stage.db.matches && f in stage.db.files && Reports(m, f, DefaultMinConfidence, x)
    ensures r.Some? ==> Descending(r.value) && forall x :: x in r.value ==> AtLeast(x.confidence, DefaultMinConfidence)
    ensures var stage := FindPotentialExtractions(AnalyzeZipFiles(IndexDrive(db, walk).0, reader, analyseRank), fs, matchRank);
      r.Some? ==> multiset(r.value) == multiset(Qualifying(stage.db.matches, stage.db.files, DefaultMinConfidence))
  {
    var indexed := IndexDrive(db, walk).0;
    var analysed := AnalyzeZipFiles(indexed, reader, analyseRank);
    var stage := FindPotentialExtractions(analysed, fs, matchRank);
    if stage.Aborted? then None else Some(GetRedundantZipsDefault(stage.db))
  }

  /** On a database whose child rows join only archive rows, every path the
      query reports is an archive path: the join reaches `files` rows only
      through match rows. */
  lemma ReportsOnlyArchives(db: Db, minConfidence: Fraction)
    requires ChildrenJoinArchives(db)
    ensures forall x :: x in GetRedundantZips(db, minConfidence) ==> IsArchivePath(x.zipPath)
  {
    forall x | x in GetRedundantZips(db, minConfidence)
      ensures IsArchivePath(x.zipPath)
    {
      RedundantMembership(db, minConfidence, x);
    }
  }

  /** The matching stage keeps every content and match row joining only
      archive rows: it writes match rows only for rows whose path is LIKE
      '%.zip', and a rowid names one `files` row. */
  lemma MatchesJoinOnlyArchives(db: Db, fs: Tree, rank: ScanOrder)
    requires FilesWellFormed(db.files) && ChildrenJoinArchives(db)
    ensures ChildrenJoinArchives(FindPotentialExtractions(db, fs, rank).db)
  {
    var after := FindPotentialExtractions(db, fs, rank).db;
    forall i | |db.matches| <= i < |after.matches|
      ensures exists a :: a in db.files && IsArchivePath(a.path) && a.id == after.matches[i].zipId
    {
      var a :| a in db.files && IsArchivePath(a.path) && RecordedFor(fs, db.contents, a, after.matches[i]);
    }
    AppendMatchesKeepsChildrenJoinArchives(db, after);
  }

  /** Every path the survey offers for deletion is an archive path, starting
      from any well-formed database whose child rows join only archive rows
      (the empty database the first run creates is one). */
  lemma SurveyReportsOnlyArchives(db: Db, walk: seq<WalkEntry>, reader: Reader, fs: Tree, analyseRank: ScanOrder, matchRank: ScanOrder)
    requires DbWellFormed(db) && ChildrenJoinArchives(db)
    ensures var r := Survey(db, walk, reader, fs, analyseRank, matchRank);
      r.Some? ==> forall x :: x in r.value ==> IsArchivePath(x.zipPath)
  {
    var indexed := IndexDrive(db, walk).0;
    IndexPreservesWellFormed(db, walk);
    IndexKeepsChildrenJoinArchives(db, walk);
    var analysed := AnalyzeZipFiles(indexed, reader, analyseRank);
    AnalyzeKeepsChildrenJoinArchives(indexed, reader, analyseRank);
    MatchesJoinOnlyArchives(analysed, fs, matchRank);
    ReportsOnlyArchives(FindPotentialExtractions(analysed, fs, matchRank).db, DefaultMinConfidence);
  }

  /** An archive whose loop records no entry (it is empty, fails to open, or
      its first timestamp does not convert or its first entry is oversize)
      and which had no content rows
      before never gets a match row: the matching stage skips an archive
      without content before it lists any directory. */
  lemma EmptyArchiveNeverMatched(db: Db, reader: Reader, fs: Tree, analyseRank: ScanOrder, matchRank: ScanOrder, f: FileRow)
    requires FilesWellFormed(db.files)
    requires f in db.files
    requires ContentPaths(db.contents, f.id) == []
    requires EntryRows(f.id, Open(reader, f.path)) == []
    ensures var after := FindPotentialExtractions(AnalyzeZipFiles(db, reader, analyseRank), fs, matchRank).db;
      forall i :: |db.matches| <= i < |after.matches| ==> after.matches[i].zipId != f.id
  {
    var analysed := AnalyzeZipFiles(db, reader, analyseRank);
    var after := FindPotentialExtractions(analysed, fs, matchRank).db;
    AnalyzePerFile(db, reader, analyseRank, f);
    RowsIffPaths(db.contents, f.id);
    RowsIffPaths(analysed.contents, f.id);
    forall i | |db.matches| <= i < |after.matches|
      ensures after.matches[i].zipId != f.id
    {
      var a :| a in analysed.files && IsArchivePath(a.path) && RecordedFor(fs, analysed.contents, a, after.matches[i]);
    }
  }

  /** An archive has content rows exactly when it has entry names to score. */
  lemma RowsIffPaths(contents: seq<ContentRow>, zipId: nat)
    ensures RowsFor(contents, zipId) == [] <==> ContentPaths(contents, zipId) == []
  {
    if RowsFor(contents, zipId) != [] {
      var row := RowsFor(contents, zipId)[0];
      assert row in RowsFor(contents, zipId);
      var i :| 0 <= i < |contents| && contents[i] == row;
      assert row.pathInZip in ContentPaths(contents, zipId);
    }
    if ContentPaths(contents, zipId) != [] {
      var n := ContentPaths(contents, zipId)[0];
      assert n in ContentPaths(contents, zipId);
      var i :| 0 <= i < |contents| && contents[i].zipId == zipId && contents[i].pathInZip == n;
      assert contents[i] in RowsFor(contents, zipId);
    }
  }

  /** An archive holding `a.txt` and then `b.txt`, where the date of
      `b.txt` does not convert, and a directory `d/x` beside it holding only
      `a.txt`. */
  const PartialArchive: Archive := Entries([ArchiveEntry("a.txt", 1, Some(0)), ArchiveEntry("b.txt", 1, None)])
  const HalfExtracted: Tree := map[
    "d" := Dir(["x.zip", "x"], true),
    "d/x.zip" := File(10, false),
    "d/x" := Dir(["a.txt"], true),
    "d/x/a.txt" := File(1, false)]

  /** As written, the analysis keeps `a.txt` alone for that archive. */
  lemma PartialArchiveKeepsPrefix(db: Db, reader: Reader, rank: ScanOrder, f: FileRow)
    requires FilesWellFormed(db.files) && f in db.files && IsArchivePath(f.path)
    requires ContentPaths(db.contents, f.id) == [] && Open(reader, f.path) == PartialArchive
    ensures ContentPaths(AnalyzeZipFiles(db, reader, rank).contents, f.id) == ["a.txt"]
  {
    AnalyzedNames(db, reader, rank, f);
    PartialArchiveNames();
  }

  /** The loop records the first entry of that archive and stops at the second. */
  lemma PartialArchiveNames()
    ensures EntryNames(PartialArchive) == ["a.txt"]
  {
    assert WritablePrefix(PartialArchive.items) == 1 by {
      assert !Writable(PartialArchive.items[1..][0]);
    }
  }

  /** An entry whose zip64 size does not fit a SQLite INTEGER ends the loop
      the same way: the archive keeps the rows of the entries before it. */
  lemma OversizeEntryKeepsPrefix()
    ensures EntryNames(Entries([ArchiveEntry("a.txt", 1, Some(0)), ArchiveEntry("big", SqliteIntLimit, Some(0))])) == ["a.txt"]
  {
    var items := [ArchiveEntry("a.txt", 1, Some(0)), ArchiveEntry("big", SqliteIntLimit, Some(0))];
    assert WritablePrefix(items) == 1 by {
      assert !Writable(items[1..][0]);
    }
  }

  /** The directory `d/x` holds `a.txt` but not `b.txt`. */
  lemma HalfExtractedScoresFull()
    ensures ExtractionConfidence(HalfExtracted, ["a.txt"], "d/x") == Confidence(1, 1)
    ensures !Exists(HalfExtracted, Join("d/x", "b.txt"))
  {
    var a, b := Join("d/x", "a.txt"), Join("d/x", "b.txt");
    assert a == "d/x/a.txt" && a in HalfExtracted && a[|a| - 1] != Separator;
    assert b == "d/x/b.txt" && b !in HalfExtracted && b[|b| - 1] != Separator;
    assert ["a.txt"][..0] == [];
    assert MatchedCount(HalfExtracted, "d/x", ["a.txt"]) == MatchedCount(HalfExtracted, "d/x", []) + 1;
  }

  /** So after the analysis the directory scores 1 for the archive although
      `b.txt` was never extracted: the archive would be reported at any
      threshold and offered for deletion. */
  lemma PartialArchiveScoresFull(db: Db, reader: Reader, rank: ScanOrder, f: FileRow)
    requires FilesWellFormed(db.files) && f in db.files && IsArchivePath(f.path)
    requires ContentPaths(db.contents, f.id) == [] && Open(reader, f.path) == PartialArchive
    ensures var names := ContentPaths(AnalyzeZipFiles(db, reader, rank).contents, f.id);
      && AtLeast(ExtractionConfidence(HalfExtracted, names, "d/x"), Fraction(1, 1))
      && !Exists(HalfExtracted, Join("d/x", PartialArchive.items[1].name))
  {
    PartialArchiveKeepsPrefix(db, reader, rank, f);
    HalfExtractedScoresFull();
  }

  /** With the per-archive step evidently intended, an archive that is
      recorded at all is recorded in full, so a full score means every one
      of its entries exists under the directory. */
  lemma AtomicFullScoreMeansAllExtracted(zipId: nat, archive: Archive, fs: Tree, dir: string)
    requires AtomicEntryRows(zipId, archive) != []
    ensures var names := RowNames(AtomicEntryRows(zipId, archive));
      AtLeast(ExtractionConfidence(fs, names, dir), Fraction(1, 1)) <==>
        forall i :: 0 <= i < |archive.items| ==> Exists(fs, Join(dir, archive.items[i].name))
  {
    var rows := AtomicEntryRows(zipId, archive);
    var names := RowNames(rows);
    FullConfidenceIffAllPresent(fs, names, dir);
    assert forall i :: 0 <= i < |names| ==> names[i] == archive.items[i].name;
  }
}

=== FILE: query.dfy ===
/** `ZipAnalyzer.get_redundant_zips`: the `potential_matches` rows whose
    confidence is at least the caller's threshold, joined with `files` on the
    archive's rowid, most confident first. */
module Query {
  import opened Scores
  import opened Store

  /** One result row: `(f.path, pm.extracted_path, pm.confidence)`. */
  datatype Redundant = Redundant(zipPath: string, extractedPath: string, confidence: Confidence)

  /** `JOIN files f ON pm.zip_id = f.id` for one match row: one result per
      `files` row carrying that rowid (none for an orphaned match). */
  function JoinFiles(m: MatchRow, files: seq<FileRow>): (r: seq<Redundant>)
    ensures forall x :: x in r <==> exists f :: f in files && f.id == m.zipId && x == Redundant(f.path, m.extractedPath, m.confidence)
  {
    if |files| == 0 then []
    else
      var rest := JoinFiles(m, files[1..]);
      assert forall f :: f in files <==> f == files[0] || f in files[1..];
      (if files[0].id == m.zipId then [Redundant(files[0].path, m.extractedPath, m.confidence)] else []) + rest
  }

  /** `x` is the joined row of match `m` and file `f`, and `m` meets the threshold. */
  predicate Reports(m: MatchRow, f: FileRow, minConfidence: Fraction, x: Redundant)
  {
    f.id == m.zipId && AtLeast(m.confidence, minConfidence) && x == Redundant(f.path, m.extractedPath, m.confidence)
  }

  /** The filtered join, before ordering, in match-table order. */
  function Qualifying(matches: seq<MatchRow>, files: seq<FileRow>, minConfidence: Fraction): (r: seq<Redundant>)
    ensures forall x :: x in r <==> exists m, f :: m in matches && f in files && Reports(m, f, minConfidence, x)
  {
    if |matches| == 0 then []
    else
      var m := matches[0];
      var rest := Qualifying(matches[1..], files, minConfidence);
      assert forall n :: n in matches <==> n == m || n in matches[1..];
      var head := if AtLeast(m.confidence, minConfidence) then JoinFiles(m, files) else [];
      assert forall x :: x in head <==> exists f :: f in files && Reports(m, f, minConfidence, x);
      head + rest
  }

  /** Adjacent rows are in non-increasing confidence order. */
  predicate Descending(rows: seq<Redundant>)
  {
    forall i :: 0 < i < |rows| ==> NotBelow(rows[i - 1].confidence, rows[i].confidence)
  }

  /** `x` placed into a descending list in front of the first row it is not
      below. */
  function Insert(x: Redundant, rows: seq<Redundant>): (r: seq<Redundant>)
    requires Descending(rows)
    ensures Descending(r)
    ensures multiset(r) == multiset(rows) + multiset{x}
    ensures |r| > 0 && (r[0] == x || (|rows| > 0 && r[0] == rows[0]))
  {
    if |rows| == 0 then [x]
    else if NotBelow(x.confidence, rows[0].confidence) then [x] + rows
    else
      NotBelowTotal(x.confidence, rows[0].confidence);
      assert rows == [rows[0]] + rows[1..];
      [rows[0]] + Insert(x, rows[1..])
  }

  /** `ORDER BY pm.confidence DESC`: a descending permutation of its input.
      SQLite leaves the order of ties open; this model keeps one of them. */
  function SortByConfidence(rows: seq<Redundant>): (r: seq<Redundant>)
    ensures Descending(r)
    ensures multiset(r) == multiset(rows)
  {
    if |rows| == 0 then []
    else
      assert rows == [rows[0]] + rows[1..];
      Insert(rows[0], SortByConfidence(rows[1..]))
  }

  /** `get_redundant_zips(min_confidence)`. Every row returned meets the
      threshold, the rows come most confident first, and they are exactly the
      qualifying joined rows, each as often as the join produces it. */
  function GetRedundantZips(db: Db, minConfidence: Fraction): (r: seq<Redundant>)
    ensures forall x :: x in r ==> AtLeast(x.confidence, minConfidence)
    ensures Descending(r)
    ensures multiset(r) == multiset(Qualifying(db.matches, db.files, minConfidence))
  {
    var q := Qualifying(db.matches, db.files, minConfidence);
    var r := SortByConfidence(q);
    forall x | x in r
      ensures AtLeast(x.confidence, minConfidence)
    {
      assert x in multiset(r);
      assert x in q;
    }
    r
  }

  /** The call without an argument uses a threshold of 0.9: it reports
      exactly the joined match rows at or above 0.9, most confident first. */
  function GetRedundantZipsDefault(db: Db): (r: seq<Redundant>)
    ensures forall x :: x in r ==> AtLeast(x.confidence, Fraction(9, 10))
    ensures forall x :: x in r <==>
      exists m, f :: m in db.matches && f in db.files && Reports(m, f, Fraction(9, 10), x)
    ensures Descending(r)
    ensures multiset(r) == multiset(Qualifying(db.matches, db.files, Fraction(9, 10)))
  {
    var r := GetRedundantZips(db, DefaultMinConfidence);
    forall x
      ensures x in r <==> exists m, f :: m in db.matches && f in db.files && Reports(m, f, Fraction(9, 10), x)
    {
      RedundantMembership(db, DefaultMinConfidence, x);
    }
    r
  }

  /** A result row is exactly a match row at or above the threshold whose
      archive rowid still joins a `files` row, paired with that row's path.
      A match whose archive row was replaced (an orphan) is never reported. */
  lemma RedundantMembership(db: Db, minConfidence: Fraction, x: Redundant)
    ensures x in GetRedundantZips(db, minConfidence) <==>
      exists m, f :: m in db.matches && f in db.files && Reports(m, f, minConfidence, x)
  {
    var r := GetRedundantZips(db, minConfidence);
    var q := Qualifying(db.matches, db.files, minConfidence);
    assert x in r <==> x in multiset(r);
    assert x in q <==> x in multiset(q);
  }

  /** Descending between adjacent rows is descending between any two rows. */
  lemma {:induction false} DescendingPairwise(rows: seq<Redundant>, i: nat, j: nat)
    requires Descending(rows)
    requires i <= j < |rows|
    ensures NotBelow(rows[i].confidence, rows[j].confidence)
    decreases j - i
  {
    if i < j {
      DescendingPairwise(rows, i + 1, j);
      NotBelowTransitive(rows[i].confidence, rows[i + 1].confidence, rows[j].confidence);
    }
  }

  /** If any qualifying row exists, the first row returned is at least as
      confident as every qualifying row. */
  lemma FirstIsMostConfident(db: Db, minConfidence: Fraction, x: Redundant)
    requires x in Qualifying(db.matches, db.files, minConfidence)
    ensures var r := GetRedundantZips(db, minConfidence);
      |r| > 0 && NotBelow(r[0].confidence, x.confidence)
  {
    var r := GetRedundantZips(db, minConfidence);
    assert x in multiset(r);
    var j :| 0 <= j < |r| && r[j] == x;
    DescendingPairwise(r, 0, j);
  }
}

=== FILE: scores.dfy ===
/** Extraction confidence as an exact ratio. The analyzer computes
    `matched / total` as a float (0 when the archive has no entries); here the
    pair of counts is kept and every comparison is done by cross-multiplying. */
module Scores {

  type Positive = n: nat | n > 0 witness 1

  /** `matched` of the archive's `total` entries were found on disk. */
  datatype Confidence = Confidence(matched: nat, total: nat)

  /** A caller-chosen threshold `num / den`. */
  datatype Fraction = Fraction(num: int, den: Positive)

  /** The scores the analyzer produces never count more hits than entries. */
  predicate Valid(c: Confidence)
  {
    c.matched <= c.total
  }

  /** Numerator of the score's value; an archive without entries scores 0. */
  function Numerator(c: Confidence): nat
  {
    if c.total == 0 then 0 else c.matched
  }

  /** Denominator of the score's value. */
  function Denominator(c: Confidence): Positive
  {
    if c.total == 0 then 1 else c.total
  }

  /** The score is at least `t` (`confidence >= t`). */
  predicate AtLeast(c: Confidence, t: Fraction)
  {
    Numerator(c) * t.den >= t.num * Denominator(c)
  }

  /** The score is strictly above `t` (`confidence > t`). */
  predicate Exceeds(c: Confidence, t: Fraction)
  {
    Numerator(c) * t.den > t.num * Denominator(c)
  }

  /** Scores strictly above this are recorded as potential matches. */
  const RecordingThreshold: Fraction := Fraction(7, 10)

  /** The reporting threshold used when the caller gives none. */
  const DefaultMinConfidence: Fraction := Fraction(9, 10)

  /** The recording test `confidence > 0.7`, in integers; an archive without
      entries scores 0 and so never passes. */
  function RecordsMatch(c: Confidence): (b: bool)
    ensures b <==> Exceeds(c, RecordingThreshold)
    ensures b ==> c.total > 0 && c.matched > 0
  {
    c.total > 0 && 10 * c.matched > 7 * c.total
  }

  /** `a`'s value is not below `b`'s: the order `ORDER BY confidence DESC` sorts by. */
  predicate NotBelow(a: Confidence, b: Confidence)
  {
    Numerator(a) * Denominator(b) >= Numerator(b) * Denominator(a)
  }

  /** A valid score lies in the closed unit interval. */
  lemma UnitInterval(c: Confidence)
    requires Valid(c)
    ensures AtLeast(c, Fraction(0, 1))
    ensures AtLeast(Confidence(1, 1), Fraction(Numerator(c), Denominator(c)))
  {
  }

  /** A score of exactly seven tenths is never recorded, and anything above it is. */
  lemma RecordingThresholdIsExclusive(c: Confidence)
    ensures 10 * c.matched == 7 * c.total ==> !RecordsMatch(c)
    ensures c.total > 0 && 10 * c.matched > 7 * c.total ==> RecordsMatch(c)
  {
  }

  /** Any two scores are comparable. */
  lemma NotBelowTotal(a: Confidence, b: Confidence)
    ensures NotBelow(a, b) || NotBelow(b, a)
  {
  }

  lemma MultiplyBoth(x: int, y: int, k: nat)
    requires x >= y
    ensures x * k >= y * k
  {
  }

  lemma CancelPositive(x: int, y: int, k: Positive)
    requires x * k >= y * k
    ensures x >= y
  {
  }

  /** The order is transitive, so a list sorted pairwise-adjacently is sorted
      between any two positions. */
  lemma NotBelowTransitive(a: Confidence, b: Confidence, c: Confidence)
    requires NotBelow(a, b) && NotBelow(b, c)
    ensures NotBelow(a, c)
  {
    var an, ad := Numerator(a), Denominator(a);
    var bn, bd := Numerator(b), Denominator(b);
    var cn, cd := Numerator(c), Denominator(c);
    MultiplyBoth(an * bd, bn * ad, cd);
    MultiplyBoth(bn * cd, cn * bd, ad);
    assert an * bd * cd == (an * cd) * bd;
    assert bn * ad * cd == (bn * cd) * ad;
    assert cn * bd * ad == (cn * ad) * bd;
    CancelPositive(an * cd, cn * ad, bd);
  }

  /** A score that clears the recording threshold meets any reporting
      threshold of at most 0.7. */
  lemma RecordedMeetsLowerThreshold(c: Confidence, t: Fraction)
    requires RecordsMatch(c)
    requires t.num * 10 <= 7 * t.den
    ensures AtLeast(c, t)
  {
    var n, d := c.matched, c.total;
    assert 10 * n > 7 * d;
    MultiplyBoth(10 * n, 7 * d, t.den);
    MultiplyBoth(7 * t.den, t.num * 10, d);
    assert 10 * n * t.den >= 10 * (t.num * d);
    CancelPositive(n * t.den, t.num * d, 10);
  }
}

=== FILE: sequences.dfy ===
/** Facts about sequences that several stages share. */
module Sequences {
  /** No element occurs twice. */
  predicate Distinct<T(==)>(xs: seq<T>)
  {
    forall i, j :: 0 <= i < j < |xs| ==> xs[i] != xs[j]
  }

  /** The tail of a sequence without repeats has none either and does not
      contain the head. */
  lemma DistinctTail<T>(xs: seq<T>)
    requires |xs| > 0 && Distinct(xs)
    ensures Distinct(xs[1..]) && xs[0] !in xs[1..]
  {
    var tail := xs[1..];
    assert forall i :: 0 <= i < |tail| ==> tail[i] == xs[i + 1];
  }

  /** Two sequences without repeats and without a common element concatenate
      to one without repeats. */
  lemma DistinctAppend<T>(a: seq<T>, b: seq<T>)
    requires Distinct(a) && Distinct(b)
    requires forall x :: x in a ==> x !in b
    ensures Distinct(a + b)
  {
    var s := a + b;
    forall i, j | 0 <= i < j < |s|
      ensures s[i] != s[j]
    {
      if i < |a| && j >= |a| {
        assert s[i] in a && s[j] == b[j - |a|];
      }
    }
  }

  /** Position of the first `true`, or the length when there is none. */
  function FirstTrue(flags: seq<bool>): (n: nat)
    ensures n <= |flags|
    ensures forall j :: 0 <= j < n ==> !flags[j]
    ensures n < |flags| ==> flags[n]
  {
    if |flags| == 0 || flags[0] then 0 else 1 + FirstTrue(flags[1..])
  }
}

=== FILE: store.dfy ===
/** The analyzer's three SQLite tables as pure data. Each table is the
    sequence of its rows in rowid order (insertion order for the two child
    tables, whose rowids only grow). A `SELECT` without `ORDER BY` promises
    no order at all; where the order of its result matters, the order is an
    input (`ScanOrder`). */
module Store {
  import opened Wrappers
  import opened Paths
  import opened Scores

  /** A `files` row: `id INTEGER PRIMARY KEY`, `path TEXT UNIQUE`. */
  datatype FileRow = FileRow(id: nat, path: string, filename: string, size: nat, modified: int)

  /** A `zip_contents` row; `zipId` refers to `files.id`. */
  datatype ContentRow = ContentRow(zipId: nat, pathInZip: string, size: nat, modified: int)

  /** A `potential_matches` row; `zipId` refers to `files.id`. */
  datatype MatchRow = MatchRow(zipId: nat, extractedPath: string, confidence: Confidence)

  datatype Db = Db(files: seq<FileRow>, contents: seq<ContentRow>, matches: seq<MatchRow>)

  /** What a `files` row records about its path, apart from the row id. */
  datatype Meta = Meta(filename: string, size: nat, modified: int)

  /** A freshly created database: three empty tables. */
  const EmptyDb: Db := Db([], [], [])

  function MetaOf(row: FileRow): Meta
  {
    Meta(row.filename, row.size, row.modified)
  }

  /** The largest rowid in the table, 0 when it is empty. */
  function MaxId(files: seq<FileRow>): (m: nat)
    ensures forall i :: 0 <= i < |files| ==> files[i].id <= m
    ensures |files| > 0 ==> exists i :: 0 <= i < |files| && files[i].id == m
    ensures |files| == 0 ==> m == 0
  {
    if |files| == 0 then 0
    else
      var m := MaxId(files[..|files| - 1]);
      if files[|files| - 1].id > m then files[|files| - 1].id else m
  }

  /** The rowid SQLite gives a row inserted without one: one more than the
      largest rowid present, chosen before any conflicting row is replaced. */
  function NewRowId(files: seq<FileRow>): (id: Positive)
    ensures forall i :: 0 <= i < |files| ==> files[i].id < id
  {
    MaxId(files) + 1
  }

  predicate IdsIncreasing(files: seq<FileRow>)
  {
    forall i, j :: 0 <= i < j < |files| ==> files[i].id < files[j].id
  }

  predicate PathsUnique(files: seq<FileRow>)
  {
    forall i, j :: 0 <= i < j < |files| ==> files[i].path != files[j].path
  }

  /** The `files` table as SQLite keeps it: rowids ascending (hence unique)
      and the `UNIQUE` constraint on `path` respected. */
  predicate FilesWellFormed(files: seq<FileRow>)
  {
    IdsIncreasing(files) && PathsUnique(files)
  }

  /** Child rows only ever name rowids that were handed out. A replaced row's
      old id stays referenced (an orphan) but no child names a future id. */
  predicate RefsIssued(db: Db)
  {
    && (forall i :: 0 <= i < |db.contents| ==> db.contents[i].zipId < NewRowId(db.files))
    && (forall i :: 0 <= i < |db.matches| ==> db.matches[i].zipId < NewRowId(db.files))
  }

  predicate DbWellFormed(db: Db)
  {
    FilesWellFormed(db.files) && RefsIssued(db)
  }

  /** Every content row and every match row that joins a `files` row at all
      joins one whose path ends in `.zip`: the analysis and matching stages
      only write rows for archives, and a rowid is never handed out twice. */
  predicate ChildrenJoinArchives(db: Db)
  {
    && (forall c, f :: c in db.contents && f in db.files && f.id == c.zipId ==> IsArchivePath(f.path))
    && (forall m, f :: m in db.matches && f in db.files && f.id == m.zipId ==> IsArchivePath(f.path))
  }

  predicate IdsDistinct(rows: seq<FileRow>)
  {
    forall i, j :: 0 <= i < j < |rows| ==> rows[i].id != rows[j].id
  }

  /** The row holding `path`: the `UNIQUE(path)` key lookup that
      `INSERT OR REPLACE` performs to find the conflicting row. */
  function Lookup(files: seq<FileRow>, path: string): (r: Option<FileRow>)
    ensures r.Some? ==> r.value in files && r.value.path == path
    ensures r.None? <==> forall i :: 0 <= i < |files| ==> files[i].path != path
  {
    if |files| == 0 then None
    else if files[0].path == path then Some(files[0])
    else Lookup(files[1..], path)
  }

  /** The set of paths the table holds a row for. */
  function PathSet(files: seq<FileRow>): set<string>
  {
    set i | 0 <= i < |files| :: files[i].path
  }

  /** The table viewed as a map from path to what is recorded for it. */
  function Snapshot(files: seq<FileRow>): (m: map<string, Meta>)
    ensures m.Keys == PathSet(files)
  {
    map p | p in PathSet(files) :: MetaOf(Lookup(files, p).value)
  }

  /** The table with the row(s) for `path` deleted, order kept. */
  function WithoutPath(files: seq<FileRow>, path: string): (r: seq<FileRow>)
    ensures forall row :: row in r <==> row in files && row.path != path
    ensures IdsIncreasing(files) ==> IdsIncreasing(r)
    ensures PathsUnique(files) ==> PathsUnique(r)
    ensures forall q :: q != path ==> Lookup(r, q) == Lookup(files, q)
  {
    if |files| == 0 then []
    else
      var rest := WithoutPath(files[1..], path);
      TailWellFormed(files);
      if files[0].path == path then rest
      else
        PrependWellFormed(files, rest);
        [files[0]] + rest
  }

  /** Dropping the first row of a well-formed table leaves it well formed. */
  lemma TailWellFormed(files: seq<FileRow>)
    requires |files| > 0
    ensures IdsIncreasing(files) ==> IdsIncreasing(files[1..])
    ensures PathsUnique(files) ==> PathsUnique(files[1..])
  {
    var tail := files[1..];
    assert forall i :: 0 <= i < |tail| ==> tail[i] == files[i + 1];
  }

  /** Putting the first row back in front of rows taken from the rest of a
      well-formed table keeps rowids ascending and paths unique. */
  lemma PrependWellFormed(files: seq<FileRow>, rest: seq<FileRow>)
    requires |files| > 0
    requires forall row :: row in rest ==> row in files[1..]
    ensures IdsIncreasing(files) && IdsIncreasing(rest) ==> IdsIncreasing([files[0]] + rest)
    ensures PathsUnique(files) && PathsUnique(rest) ==> PathsUnique([files[0]] + rest)
  {
    var s := [files[0]] + rest;
    forall j | 0 <= j < |rest|
      ensures IdsIncreasing(files) ==> files[0].id < rest[j].id
      ensures PathsUnique(files) ==> files[0].path != rest[j].path
    {
      assert rest[j] in files[1..];
      var k :| 0 <= k < |files| - 1 && files[1..][k] == rest[j];
      assert files[k + 1] == rest[j];
    }
    assert forall i :: 0 < i < |s| ==> s[i] == rest[i - 1];
  }

  /** `INSERT OR REPLACE INTO files (path, filename, size, modified)`: the
      row that held `path` is deleted and a new row with a fresh rowid is
      appended. The table stays well formed and exactly one more rowid has
      been issued; `LookupInsertOrReplace` states what it now records. */
  function InsertOrReplace(files: seq<FileRow>, path: string, meta: Meta): (r: seq<FileRow>)
    ensures FilesWellFormed(files) ==> FilesWellFormed(r)
    ensures NewRowId(r) == NewRowId(files) + 1
  {
    var kept := WithoutPath(files, path);
    assert forall i :: 0 <= i < |kept| ==> kept[i] in files;
    kept + [FileRow(NewRowId(files), path, meta.filename, meta.size, meta.modified)]
  }

  /** After insert-or-replace, `path` finds the new row, carrying `meta` and
      a rowid above every earlier one, and every other path finds what it
      found before. */
  lemma LookupInsertOrReplace(files: seq<FileRow>, path: string, meta: Meta, q: string)
    ensures Lookup(InsertOrReplace(files, path, meta), q) ==
      if q == path then Some(FileRow(NewRowId(files), path, meta.filename, meta.size, meta.modified))
      else Lookup(files, q)
  {
    var kept := WithoutPath(files, path);
    var row := FileRow(NewRowId(files), path, meta.filename, meta.size, meta.modified);
    LookupAppend(kept, row, q);
  }

  /** `LookupInsertOrReplace` for every path at once. */
  lemma LookupsAfterInsertOrReplace(files: seq<FileRow>, path: string, meta: Meta)
    ensures forall q ::
      Lookup(InsertOrReplace(files, path, meta), q) ==
      (if q == path then Some(FileRow(NewRowId(files), path, meta.filename, meta.size, meta.modified))
       else Lookup(files, q))
  {
    forall q
      ensures Lookup(InsertOrReplace(files, path, meta), q) ==
        if q == path then Some(FileRow(NewRowId(files), path, meta.filename, meta.size, meta.modified))
        else Lookup(files, q)
    {
      LookupInsertOrReplace(files, path, meta, q);
    }
  }

  /** An upsert cannot make a child row join a non-archive row: the only new
      `files` row has a rowid no child row names yet. */
  lemma UpsertKeepsChildrenJoinArchives(db: Db, path: string, meta: Meta)
    requires RefsIssued(db) && ChildrenJoinArchives(db)
    ensures ChildrenJoinArchives(db.(files := InsertOrReplace(db.files, path, meta)))
  {
    var files := InsertOrReplace(db.files, path, meta);
    var kept := WithoutPath(db.files, path);
    assert forall f :: f in files ==> f in db.files || f.id == NewRowId(db.files) by {
      forall f | f in files
        ensures f in db.files || f.id == NewRowId(db.files)
      {
        var i :| 0 <= i < |files| && files[i] == f;
        if i < |kept| {
          assert f in kept;
        }
      }
    }
    forall c | c in db.contents
      ensures c.zipId < NewRowId(db.files)
    {
      var i :| 0 <= i < |db.contents| && db.contents[i] == c;
    }
    forall m | m in db.matches
      ensures m.zipId < NewRowId(db.files)
    {
      var i :| 0 <= i < |db.matches| && db.matches[i] == m;
    }
  }

  lemma {:induction false} LookupAppend(files: seq<FileRow>, row: FileRow, q: string)
    ensures Lookup(files + [row], q) ==
      (if Lookup(files, q).Some? then Lookup(files, q) else if row.path == q then Some(row) else None)
    decreases |files|
  {
    if |files| > 0 {
      assert (files + [row])[1..] == files[1..] + [row];
      LookupAppend(files[1..], row, q);
    }
  }

  /** A path is in the table exactly when looking it up finds a row. */
  lemma PathSetLookup(files: seq<FileRow>, p: string)
    ensures p in PathSet(files) <==> Lookup(files, p).Some?
  {
    if Lookup(files, p).Some? {
      var row := Lookup(files, p).value;
      var i :| 0 <= i < |files| && files[i] == row;
      assert files[i].path == p;
    }
  }

  /** Seen through its path-indexed view, insert-or-replace is a map update:
      the table records exactly one entry per path, the latest one. */
  lemma SnapshotInsertOrReplace(files: seq<FileRow>, path: string, meta: Meta)
    ensures Snapshot(InsertOrReplace(files, path, meta)) == Snapshot(files)[path := meta]
  {
    var r := InsertOrReplace(files, path, meta);
    var after, expected := Snapshot(r), Snapshot(files)[path := meta];
    forall q
      ensures q in after.Keys <==> q in expected.Keys
    {
      LookupInsertOrReplace(files, path, meta, q);
      PathSetLookup(r, q);
      PathSetLookup(files, q);
    }
    forall q | q in after.Keys
      ensures after[q] == expected[q]
    {
      LookupInsertOrReplace(files, path, meta, q);
      if q != path {
        PathSetLookup(files, q);
        assert after[q] == MetaOf(Lookup(r, q).value);
        assert expected[q] == MetaOf(Lookup(files, q).value);
      }
    }
    assert after == expected;
  }

  /** Replacing an existing path retires its rowid: the new row carries a
      rowid never seen before and no row keeps the old one, so child rows
      written under the old rowid are orphans. */
  lemma ReplaceRetiresRowId(files: seq<FileRow>, path: string, meta: Meta)
    requires FilesWellFormed(files)
    requires Lookup(files, path).Some?
    ensures var r := InsertOrReplace(files, path, meta);
      && Lookup(r, path).value.id != Lookup(files, path).value.id
      && forall i :: 0 <= i < |r| ==> r[i].id != Lookup(files, path).value.id
  {
    var r := InsertOrReplace(files, path, meta);
    var prior := Lookup(files, path).value;
    var kept := WithoutPath(files, path);
    var k :| 0 <= k < |files| && files[k] == prior;
    forall i | 0 <= i < |r|
      ensures r[i].id != prior.id
    {
      if i < |kept| {
        assert r[i] == kept[i] && kept[i] in kept;
        var j :| 0 <= j < |files| && files[j] == kept[i];
        assert j != k;
      }
    }
    LookupInsertOrReplace(files, path, meta, path);
    assert Lookup(r, path).value in r;
  }

  /** In a table with unique paths, the row at any position is the one its
      path looks up. */
  lemma {:induction false} LookupUnique(files: seq<FileRow>, i: nat, path: string)
    requires PathsUnique(files)
    requires i < |files| && files[i].path == path
    ensures Lookup(files, path) == Some(files[i])
    decreases |files|
  {
    if i > 0 {
      assert files[0].path != path;
      LookupUnique(files[1..], i - 1, path);
    }
  }

  /** The archive rows (`WHERE path LIKE '%.zip'`), in rowid order. */
  function ArchiveRows(files: seq<FileRow>): (r: seq<FileRow>)
    ensures forall row :: row in r <==> row in files && IsArchivePath(row.path)
    ensures IdsIncreasing(files) ==> IdsIncreasing(r)
  {
    if |files| == 0 then []
    else
      var rest := ArchiveRows(files[1..]);
      TailWellFormed(files);
      if IsArchivePath(files[0].path) then
        PrependWellFormed(files, rest);
        [files[0]] + rest
      else rest
  }

  /** The position the query plan gives a row in the result of a `SELECT`
      without `ORDER BY`: rows come out by ascending rank. SQLite promises no
      order, and every order of a set of rows is the rank order for the rank
      that numbers them in that order, so the rank stands for whatever plan
      the database picks (a rowid scan, a scan of the `UNIQUE(path)` index). */
  type ScanOrder = FileRow -> int

  predicate Ranked(rows: seq<FileRow>, rank: ScanOrder)
  {
    forall i :: 0 < i < |rows| ==> rank(rows[i - 1]) <= rank(rows[i])
  }

  /** `x` placed in front of the first row it does not outrank. */
  function InsertByRank(x: FileRow, rows: seq<FileRow>, rank: ScanOrder): (r: seq<FileRow>)
    ensures |r| == |rows| + 1
    ensures forall y :: y in r <==> y == x || y in rows
    ensures r[0] == x || (|rows| > 0 && r[0] == rows[0])
    ensures Ranked(rows, rank) ==> Ranked(r, rank)
    ensures IdsDistinct(rows) && (forall y :: y in rows ==> y.id != x.id) ==> IdsDistinct(r)
  {
    if |rows| == 0 then [x]
    else if rank(x) <= rank(rows[0]) then
      assert forall i :: 0 < i < |rows| + 1 ==> ([x] + rows)[i] == rows[i - 1];
      [x] + rows
    else
      var tail := rows[1..];
      var rest := InsertByRank(x, tail, rank);
      assert forall y :: y in rows <==> y == rows[0] || y in tail;
      assert forall i :: 0 < i < |rest| + 1 ==> ([rows[0]] + rest)[i] == rest[i - 1];
      assert Ranked(rows, rank) ==> Ranked(tail, rank) by {
        assert forall i :: 0 <= i < |tail| ==> tail[i] == rows[i + 1];
      }
      assert IdsDistinct(rows) ==> IdsDistinct(tail) && forall y :: y in tail ==> y.id != rows[0].id by {
        assert forall i :: 0 <= i < |tail| ==> tail[i] == rows[i + 1];
      }
      [rows[0]] + rest
  }

  /** The rows ordered by rank, ties kept in their given order. */
  function SortByRank(rows: seq<FileRow>, rank: ScanOrder): (r: seq<FileRow>)
    ensures |r| == |rows|
    ensures forall y :: y in r <==> y in rows
    ensures Ranked(r, rank)
    ensures IdsDistinct(rows) ==> IdsDistinct(r)
  {
    if |rows| == 0 then []
    else
      var tail := rows[1..];
      assert forall y :: y in rows <==> y == rows[0] || y in tail;
      assert IdsDistinct(rows) ==> IdsDistinct(tail) && forall y :: y in tail ==> y.id != rows[0].id by {
        assert forall i :: 0 <= i < |tail| ==> tail[i] == rows[i + 1];
      }
      InsertByRank(rows[0], SortByRank(tail, rank), rank)
  }

  /** `SELECT id, path FROM files WHERE path LIKE '%.zip'` as the plan
      `rank` returns it: every archive row once, in rank order. */
  function ArchiveScan(files: seq<FileRow>, rank: ScanOrder): (r: seq<FileRow>)
    ensures forall row :: row in r <==> row in files && IsArchivePath(row.path)
    ensures |r| == |ArchiveRows(files)|
    ensures Ranked(r, rank)
    ensures IdsIncreasing(files) ==> IdsDistinct(r)
  {
    SortByRank(ArchiveRows(files), rank)
  }

  /** A rowid scan is one of the plans: ranking rows by rowid gives the
      archive rows in table order. */
  lemma {:induction false} ArchiveScanByRowId(files: seq<FileRow>)
    requires IdsIncreasing(files)
    ensures ArchiveScan(files, (row: FileRow) => row.id) == ArchiveRows(files)
  {
    SortedIsFixed(ArchiveRows(files), (row: FileRow) => row.id);
  }

  lemma {:induction false} SortedIsFixed(rows: seq<FileRow>, rank: ScanOrder)
    requires Ranked(rows, rank)
    ensures SortByRank(rows, rank) == rows
    decreases |rows|
  {
    if |rows| > 0 {
      var tail := rows[1..];
      assert Ranked(tail, rank) by {
        assert forall i :: 0 <= i < |tail| ==> tail[i] == rows[i + 1];
      }
      SortedIsFixed(tail, rank);
      assert rows == [rows[0]] + tail;
    }
  }

  /** The archive rows are what the SQL query itself selects. */
  lemma ArchiveRowsAreLikeMatches(files: seq<FileRow>, row: FileRow)
    ensures row in ArchiveRows(files) <==> row in files && Like(row.path, ArchivePattern)
  {
    LikeArchivePattern(row.path);
  }

  /** `SELECT path_in_zip FROM zip_contents WHERE zip_id = ?`, in rowid
      order. */
  function ContentPaths(contents: seq<ContentRow>, zipId: nat): (r: seq<string>)
    ensures |r| <= |contents|
    ensures forall n :: n in r <==> exists i :: 0 <= i < |contents| && contents[i].zipId == zipId && contents[i].pathInZip == n
  {
    if |contents| == 0 then []
    else
      var rest := ContentPaths(contents[1..], zipId);
      assert forall i :: 0 <= i < |contents| - 1 ==> contents[1..][i] == contents[i + 1];
      (if contents[0].zipId == zipId then [contents[0].pathInZip] else []) + rest
  }

  /** The content rows recorded for archive `zipId`, in rowid order. */
  function RowsFor(contents: seq<ContentRow>, zipId: nat): (r: seq<ContentRow>)
    ensures forall row :: row in r <==> row in contents && row.zipId == zipId
  {
    if |contents| == 0 then []
    else
      var rest := RowsFor(contents[1..], zipId);
      (if contents[0].zipId == zipId then [contents[0]] else []) + rest
  }

  /** The entry names of a list of content rows, one per row. */
  function RowNames(rows: seq<ContentRow>): (r: seq<string>)
    ensures |r| == |rows|
    ensures forall i :: 0 <= i < |rows| ==> r[i] == rows[i].pathInZip
  {
    seq(|rows|, i requires 0 <= i < |rows| => rows[i].pathInZip)
  }

  /** The names fetched for an archive are the names of its rows, one per
      row and in the same order, duplicates included. */
  lemma {:induction false} ContentPathsAreRowNames(contents: seq<ContentRow>, zipId: nat)
    ensures ContentPaths(contents, zipId) == RowNames(RowsFor(contents, zipId))
    decreases |contents|
  {
    if |contents| > 0 {
      ContentPathsAreRowNames(contents[1..], zipId);
      var rest := RowsFor(contents[1..], zipId);
      if contents[0].zipId == zipId {
        assert RowNames([contents[0]] + rest) == [contents[0].pathInZip] + RowNames(rest);
      }
    }
  }

  /** The names of concatenated rows are the concatenated names. */
  lemma RowNamesAppend(a: seq<ContentRow>, b: seq<ContentRow>)
    ensures RowNames(a + b) == RowNames(a) + RowNames(b)
  {
    assert forall i :: 0 <= i < |a| + |b| ==> (a + b)[i] == if i < |a| then a[i] else b[i - |a|];
  }

  /** Selecting one archive's rows distributes over appending rows. */
  lemma {:induction false} RowsForAppend(a: seq<ContentRow>, b: seq<ContentRow>, zipId: nat)
    ensures RowsFor(a + b, zipId) == RowsFor(a, zipId) + RowsFor(b, zipId)
    decreases |a|
  {
    if |a| == 0 {
      assert a + b == b;
    } else {
      assert (a + b)[0] == a[0];
      assert (a + b)[1..] == a[1..] + b;
      RowsForAppend(a[1..], b, zipId);
      var head := if a[0].zipId == zipId then [a[0]] else [];
      assert RowsFor(a + b, zipId) == head + RowsFor(a[1..] + b, zipId);
      assert RowsFor(a, zipId) == head + RowsFor(a[1..], zipId);
    }
  }

  /** The same for the selected entry names. */
  lemma {:induction false} ContentPathsAppend(a: seq<ContentRow>, b: seq<ContentRow>, zipId: nat)
    ensures ContentPaths(a + b, zipId) == ContentPaths(a, zipId) + ContentPaths(b, zipId)
    decreases |a|
  {
    if |a| == 0 {
      assert a + b == b;
    } else {
      assert (a + b)[0] == a[0];
      assert (a + b)[1..] == a[1..] + b;
      ContentPathsAppend(a[1..], b, zipId);
      var head := if a[0].zipId == zipId then [a[0].pathInZip] else [];
      assert ContentPaths(a + b, zipId) == head + ContentPaths(a[1..] + b, zipId);
      assert ContentPaths(a, zipId) == head + ContentPaths(a[1..], zipId);
    }
  }

  /** Rowids are unique, so a rowid names at most one `files` row. */
  lemma RowIdNamesOneRow(files: seq<FileRow>, a: FileRow, b: FileRow)
    requires IdsIncreasing(files)
    requires a in files && b in files && a.id == b.id
    ensures a == b
  {
    var i :| 0 <= i < |files| && files[i] == a;
    var j :| 0 <= j < |files| && files[j] == b;
    assert i == j;
  }

  /** Appending match rows that name issued rowids keeps the database well formed. */
  lemma AppendMatchesWellFormed(db: Db, rows: seq<MatchRow>)
    requires DbWellFormed(db)
    requires forall m :: m in rows ==> m.zipId < NewRowId(db.files)
    ensures DbWellFormed(db.(matches := db.matches + rows))
  {
    var all := db.matches + rows;
    forall i | 0 <= i < |all|
      ensures all[i].zipId < NewRowId(db.files)
    {
      if i >= |db.matches| {
        assert all[i] == rows[i - |db.matches|];
      }
    }
  }

  /** Appending match rows that each name an archive row keeps every child
      row joining only archive rows, since a rowid names one `files` row. */
  lemma AppendMatchesKeepsChildrenJoinArchives(db: Db, after: Db)
    requires FilesWellFormed(db.files) && ChildrenJoinArchives(db)
    requires after.files == db.files && after.contents == db.contents
    requires |db.matches| <= |after.matches| && after.matches[..|db.matches|] == db.matches
    requires forall i :: |db.matches| <= i < |after.matches| ==>
      exists a :: a in db.files && IsArchivePath(a.path) && a.id == after.matches[i].zipId
    ensures ChildrenJoinArchives(after)
  {
    forall m, f | m in after.matches && f in db.files && f.id == m.zipId
      ensures IsArchivePath(f.path)
    {
      var i :| 0 <= i < |after.matches| && after.matches[i] == m;
      if i < |db.matches| {
        assert m == after.matches[..|db.matches|][i];
      } else {
        var a :| a in db.files && IsArchivePath(a.path) && a.id == after.matches[i].zipId;
        RowIdNamesOneRow(db.files, a, f);
      }
    }
  }

  /** The rowid of a row in the table has been issued. */
  lemma RowIdIssued(files: seq<FileRow>, id: nat)
    requires exists a :: a in files && a.id == id
    ensures id < NewRowId(files)
  {
    var a :| a in files && a.id == id;
    var k :| 0 <= k < |files| && files[k] == a;
  }

  /** A rowid that no child row mentions has no content rows. */
  lemma FreshIdHasNoContent(db: Db, id: nat)
    requires RefsIssued(db)
    requires id >= NewRowId(db.files)
    ensures ContentPaths(db.contents, id) == []
  {
    NoRowsNoPaths(db.contents, id);
  }

  lemma NoRowsNoPaths(contents: seq<ContentRow>, zipId: nat)
    requires forall i :: 0 <= i < |contents| ==> contents[i].zipId != zipId
    ensures ContentPaths(contents, zipId) == []
  {
  }
}

=== FILE: wrappers.dfy ===
/** The optional value used wherever the analyzer may find nothing. */
module Wrappers {
  datatype Option<+T> = None | Some(value: T)
}
